=== FILE: README.md ===
# ProposalPilot core, modelled in Dafny

ProposalPilot lets a service business draft, edit and share client
proposals. A draft can be produced by a text-generation provider or, when
that is unavailable, by a deterministic fallback. This project models the
parts of the application with behaviour worth stating and proves that
behaviour.

- **Industry template registry** (`Templates`): the six industries, each
  with its default terms, sample deliverables and prompt context, and the
  lookup by id.
- **Draft generator** (`DraftGenerator`):
  - the template is resolved by id;
  - the provider is skipped when the API key is missing or still the
    placeholder;
  - code-fence markers are stripped from the provider's text;
  - every failure falls back;
  - the fallback draft is deterministic and its prices sum to its subtotal.

  The provider and `JSON.parse` are opaque function parameters, so the
  proofs cover every provider behaviour. The registry is a parameter of the
  generator functions; the application passes `Templates.IndustryTemplates`.
- **New-proposal page** (`ProposalEditor`): a class holding the wizard step,
  the client form and the draft. Each handler is a method, guarded by the
  step in which its control is shown. Sending a generate request and
  receiving its reply are separate steps, so the user may go back and edit
  the form while the request is in flight. Deliverable edits refold the subtotal
  and total. Appends and timeline edits change one slot only. The save
  payload copies the pricing figures.
- **Dashboard** (`Dashboard`):
  - the array guard on the fetched list;
  - counts by status class and the accepted revenue, as folds;
  - the status badge with its gray fallback;
  - the amount cell.
- **API routes over an in-memory store**:
  - `GenerateRoute`: authentication, then the three required fields, then
    the generator.
  - `ProposalsRoute`: a `ProposalStore` class. The list shows only the
    owner's proposals, newest first, each with its latest view. Creation
    stamps the owner and a server-side share token, and the store keeps ids
    and tokens unique.
  - `ProfileRoute`: a `UserStore` class. GET returns a projection without
    the password. PUT writes only six whitelisted fields.

Shared pieces live in their own modules:

- `Wrappers`: `Option`, the route `Response` and the session user id.
- `JsText`: JavaScript truthiness, `||` on optional strings, and `trim`
  with ECMAScript's whitespace set.
- `Drafts`: the draft shape, the `Number(x) || 0` price fold, and the
  `Balanced` invariant (subtotal = Σ price, total = subtotal + tax).

The session, the clock, the share-token generator and store failures
are parameters:

- the session is `Option<UserId>`;
- `now`, `token` and `id` are passed in;
- `fault: bool` stands for a failing store call.

Where the code's own parts promise more than the code does, the model
follows what the code does:

- The prompt asks the provider for deliverable prices that add up to the
  subtotal (`src/lib/openai.ts:50`), but the reply is parsed and cast
  without any check (`src/lib/openai.ts:111`). The model therefore proves
  balance (subtotal = Σ price, total = subtotal + tax) only for the
  fallback draft (`DraftGenerator.FallbackIsBalanced`). In the editor,
  balance is re-established by every deliverable edit
  (`NewProposalPage.UpdateDeliverable`), and the other editor changes
  preserve it once it holds; a title, scope or terms edit leaves pricing
  untouched.
- The editor only offers DRAFT and SENT when saving
  (`src/app/proposals/new/page.tsx:502`, `:509`), but the create route
  passes any truthy `status` the body carries on to the store
  (`src/app/api/proposals/route.ts:66`). The model stores it; a value the
  store's own schema rejects is a store failure (`fault`), answered 500.
- The generate and proposals routes wrap their work in `try`/`catch` and
  answer 500 on failure (`src/app/api/proposals/generate/route.ts:7-37`,
  `src/app/api/proposals/route.ts:8-32`, `:36-77`), but the profile route
  does not (`src/app/api/user/profile/route.ts:12-24`, `:37-47`). There, an
  unreadable body, an update of a missing user, or any other store failure
  escapes as an unhandled error (`Response.Unhandled`).

## Model

| member | source | states |
|---|---|---|
| Templates.FindTemplate | src/lib/openai.ts:34 | the result is an entry of the list with the requested id, and it is absent exactly when no entry has that id |
| Templates.RegistryOrder | src/lib/templates.ts:11-111 | the registry holds six entries with ids general-contractor, landscaping, cleaning, it-services, marketing-agency, consulting, in that order |
| Templates.RegistryIdsDistinct | src/lib/templates.ts:13-95 | no two registry entries share an id |
| Templates.FindTemplateUnique | src/lib/openai.ts:34 | with distinct ids, first-match search returns `t` exactly when `t` is in the list with that id |
| Templates.Lookup | src/lib/openai.ts:119 | specified by `LookupUnique`, `LookupGeneralContractor` and `LookupOther`: the registry entry with that id, or nothing |
| Templates.LookupUnique | src/lib/templates.ts:11-111 | registry lookup yields `t` iff `t` is the registry entry with that id |
| Templates.LookupGeneralContractor | src/lib/templates.ts:12-27 | "general-contractor" finds the general-contractor entry |
| Templates.RegistryEntriesComplete | src/lib/templates.ts:17-26 | every entry has non-empty default terms and prompt context and 4 or 5 sample deliverables |
| Templates.LookupOther | src/app/settings/page.tsx:128 | the "other" business type has no template |
| JsText.Truthy | src/lib/openai.ts:82 | specified by `OrElse` and `TrimEmptyIffBlank`: a missing value and the empty string are falsy, every other string truthy |
| JsText.OrElse | src/lib/openai.ts:35-36 | `s || fallback`: the string itself when present and non-empty, else the fallback |
| JsText.TrimStart | src/lib/openai.ts:110 | the result is a suffix of the input that does not start with whitespace, and everything dropped is whitespace |
| JsText.TrimEnd | src/lib/openai.ts:110 | the result is a prefix of the input that does not end with whitespace, and everything dropped is whitespace |
| JsText.Trim | src/lib/openai.ts:110 | the result is the slice of the input between its leading and its trailing whitespace, and neither of its ends is whitespace |
| JsText.TrimTrailingNewline | src/lib/openai.ts:110 | appending a newline does not change what `trim` returns |
| JsText.TrimEmptyIffBlank | src/app/proposals/new/page.tsx:291 | `s.trim()` is empty exactly when every character of `s` is whitespace |
| Drafts.NumberOrZero | src/app/proposals/new/page.tsx:107 | a number counts as itself, anything else as 0 |
| Drafts.PriceSum | src/app/proposals/new/page.tsx:107 | specified by `PriceSumAppend` and `PriceSumUpdate` |
| Drafts.Balanced | src/app/proposals/new/page.tsx:107-111 | the invariant the editor's recomputation establishes, kept by `DeliverableEditSpec`, `NewDeliverableSpec` and `TimelineEditSpec` and met by the fallback (`FallbackIsBalanced`) |
| Drafts.PriceSumAppend | src/app/proposals/new/page.tsx:107 | the price fold over a concatenation is the sum of the two folds |
| Drafts.PriceSumUpdate | src/app/proposals/new/page.tsx:105-107 | replacing deliverable `i` changes the fold by exactly the new price minus the old |
| DraftGenerator.ResolveTemplate | src/lib/openai.ts:34-36 | the matched template's prompt context and default terms, or "" for both when no template matches |
| DraftGenerator.StripMarker | src/lib/openai.ts:108-109 | removing a marker never lengthens the text; what it keeps and drops is stated by `StripWithoutMarker`, `StripMarkerNewline`, `StripAfterTickless` and `StripLeavesNoFence` |
| DraftGenerator.StripLeavesNoFence | src/lib/openai.ts:109 | after the global removal of "```" (each with an optional newline) no three consecutive backticks remain |
| DraftGenerator.CleanRemovesFences | src/lib/openai.ts:107-110 | the cleaned content contains no "```", and so no "```json" |
| DraftGenerator.StripWithoutTicks | src/lib/openai.ts:108-109 | text without a backtick is left unchanged by marker removal |
| DraftGenerator.CleanWithoutTicks | src/lib/openai.ts:107-110 | text without a backtick is only trimmed |
| DraftGenerator.CleanFencedJson | src/lib/openai.ts:107-110 | a reply of "```json", newline, JSON without backticks, newline, "```" cleans to exactly the trimmed JSON |
| DraftGenerator.StripWithoutMarker | src/lib/openai.ts:108-109 | text in which the marker does not occur is kept, so stray backticks that do not form "```json" survive |
| DraftGenerator.StripWithoutFence | src/lib/openai.ts:109 | text without three consecutive backticks is kept, so single and double backticks survive |
| DraftGenerator.StripMarkerNewline | src/lib/openai.ts:108-109 | a marker is removed with exactly one directly following newline: a second newline stays, and without a newline only the marker goes |
| DraftGenerator.StripAfterTickless | src/lib/openai.ts:108-109 | text before the first backtick passes through marker removal unchanged |
| DraftGenerator.Clean | src/lib/openai.ts:107-110 | specified by `CleanRemovesFences`, `CleanWithoutTicks` and `CleanFencedJson`: no fence remains, tickless text is only trimmed, a fenced reply yields its JSON |
| DraftGenerator.HasUsableKey | src/lib/openai.ts:81-84 | specified by `NoKeyMeansFallback` and `GenerateOutcome`: without a non-empty key other than the placeholder, the provider is never consulted |
| DraftGenerator.GenerateProposal | src/lib/openai.ts:31-116 | specified by `GenerateOutcome`, `NoKeyMeansFallback` and `FallbackIsBalanced`: the parsed provider draft on the success path, the fallback on every other path, and it never fails |
| DraftGenerator.Addressee | src/lib/openai.ts:123 | specified by `DemoScopeNamesClient`: the client's company when non-empty, else the client's name |
| DraftGenerator.DemoScope | src/lib/openai.ts:123 | specified by `DemoScopeNamesClient`: it addresses the company, or else the client, and quotes only the first min(100, length) characters of the job description before closing the quote |
| DraftGenerator.IndustryLabel | src/lib/openai.ts:122 | the five named ids get Construction, Landscaping, Cleaning, IT, Marketing; every other id gets Consulting |
| DraftGenerator.Excerpt | src/lib/openai.ts:123 | `substring(0, 100)`: a prefix of the description of length min(100, length) |
| DraftGenerator.DemoTerms | src/lib/openai.ts:183-185 | the matched template's terms when non-empty, else the generic terms |
| DraftGenerator.DemoDeliverablesSum | src/lib/openai.ts:124-149 | the four fallback prices sum to 9000 |
| DraftGenerator.DemoProposal | src/lib/openai.ts:118-187 | four deliverables priced 1500, 5500, 1200, 800; subtotal 9000, tax 0, total 9000; the draft is balanced |
| DraftGenerator.DemoTitle | src/lib/openai.ts:122 | the title is the industry label, " Proposal for ", then the client name |
| DraftGenerator.DemoScopeNamesClient | src/lib/openai.ts:123 | the scope opens by naming the company if non-empty, else the client, and quotes exactly the prefix of at most 100 characters of the job description, the quote closing with `..."` right after it |
| DraftGenerator.DemoDeterministic | src/lib/openai.ts:124-185 | deliverables, timeline and pricing are the same for every input; terms depend only on the industry |
| DraftGenerator.DemoTermsFromRegistry | src/lib/openai.ts:183-185 | with the application's registry, a registered industry gets its template's terms and any other industry the generic terms |
| DraftGenerator.NoKeyMeansFallback | src/lib/openai.ts:81-86 | without a usable key the result is the fallback, whatever the provider and parser do |
| DraftGenerator.GenerateOutcome | src/lib/openai.ts:88-115 | the result is the parsed provider draft when the key is usable and the content is non-empty and parses; otherwise it is the fallback, and no provider draft exists |
| DraftGenerator.FallbackIsBalanced | src/lib/openai.ts:112-115 | whenever the provider path yields no draft, the result is balanced |
| DraftGenerator.KitchenScenario | src/lib/openai.ts:81-86 | without a key, "renovate kitchen" for Sarah (general contractor) gives "Construction Proposal for Sarah", four deliverables summing to 9000, total 9000 and the template's terms |
| GenerateRoute.RequiredFieldsPresent | src/app/api/proposals/generate/route.ts:16 | specified by `MissingFieldsBeforeGenerator` and `PostOutcome`: job description, industry and client name all present and non-empty |
| GenerateRoute.GeneratorInput | src/app/api/proposals/generate/route.ts:23-29 | the generator receives exactly the body's jobDescription, industry, clientName, clientCompany and businessName |
| GenerateRoute.UnauthenticatedFirst | src/app/api/proposals/generate/route.ts:8-11 | without a session the answer is 401, independent of body, key, provider and parser |
| GenerateRoute.MissingFieldsBeforeGenerator | src/app/api/proposals/generate/route.ts:16-21 | a missing or empty required field gives 400 "Missing required fields", independent of key, provider and parser |
| GenerateRoute.Post | src/app/api/proposals/generate/route.ts:6-39 | specified by `UnauthenticatedFirst`, `MissingFieldsBeforeGenerator` and `PostOutcome`: 401, then 500 for an unreadable body, then 400, else the generated draft |
| GenerateRoute.PostOutcome | src/app/api/proposals/generate/route.ts:6-39 | success iff authenticated with a readable body holding the three fields; errors are only 401, 400, and 500 for an unreadable body; a success is the provider draft or the fallback for exactly the body's five fields |
| ProposalsRoute.OwnedBy | src/app/api/proposals/route.ts:15 | exactly the owner's records, each as often as stored |
| ProposalsRoute.InsertNewestPermutes | src/app/api/proposals/route.ts:16 | insertion adds exactly the one record |
| ProposalsRoute.InsertNewestOrdered | src/app/api/proposals/route.ts:16 | insertion into a newest-first list keeps it newest-first |
| ProposalsRoute.SortNewestFirst | src/app/api/proposals/route.ts:16 | specified by `SortNewestFirstSpec`: a permutation into newest-first order |
| ProposalsRoute.SortNewestFirstSpec | src/app/api/proposals/route.ts:16 | sorting is a permutation into newest-first order |
| ProposalsRoute.LatestView | src/app/api/proposals/route.ts:17-22 | a view of that proposal with the largest `viewedAt`; absent exactly when the proposal has no views |
| ProposalsRoute.LatestViews | src/app/api/proposals/route.ts:17-22 | specified by `LatestViewsSpec` |
| ProposalsRoute.LatestViewsSpec | src/app/api/proposals/route.ts:17-22 | each listed proposal carries at most one view: none without views, else a latest one |
| ProposalsRoute.Listing | src/app/api/proposals/route.ts:14-23 | specified by `ListingSpec`: the owner's proposals newest first, each with its latest view |
| ProposalsRoute.ListingSpec | src/app/api/proposals/route.ts:14-23 | the list holds exactly the owner's proposals (as a multiset), newest first, each with its latest view |
| ProposalsRoute.NewRecord | src/app/api/proposals/route.ts:45-67 | specified by `NewRecordSources`: owner and token from the server, content from the body, status defaulting to DRAFT |
| ProposalsRoute.NewRecordSources | src/app/api/proposals/route.ts:43-67 | the owner comes from the session and the token from the server; content is copied; status is the body's when truthy, else DRAFT; validUntil is null unless truthy; a `userId` or `shareToken` in the body changes nothing |
| ProposalsRoute.AppendKeepsKeysUnique | src/app/api/proposals/route.ts:45-68 | appending keeps ids and share tokens unique exactly when the new id and token are unused |
| ProposalsRoute.ProposalStore.List | src/app/api/proposals/route.ts:7-33 | 401 without session, 500 on store failure, else exactly the owner's proposals newest first, each with its `take: 1` latest view: the listing specified by `ListingSpec` |
| ProposalsRoute.ProposalStore.Create | src/app/api/proposals/route.ts:35-78 | 401 without session; 500 and no change for an unreadable body, a store failure or a clashing id or token; else the new record is appended and returned; keys stay unique |
| ProposalsRoute.CreatedIsListedToOwnerOnly | src/app/api/proposals/route.ts:15 | a stored record is listed to its owner and to no other user |
| ProposalEditor.WithField | src/app/proposals/new/page.tsx:163-216 | a client-field edit sets that field and leaves the other form fields unchanged |
| ProposalEditor.ApplyEdit | src/app/proposals/new/page.tsx:106 | a deliverable edit sets the chosen field and keeps the other two |
| ProposalEditor.WithDeliverableEdit | src/app/proposals/new/page.tsx:104-112 | specified by `DeliverableEditSpec` |
| ProposalEditor.DeliverableEditSpec | src/app/proposals/new/page.tsx:104-112 | only slot `i` changes; title, scope, timeline, terms, tax and notes are kept; the result is balanced; from a balanced draft, subtotal and total move by exactly the price change |
| ProposalEditor.WithNewDeliverable | src/app/proposals/new/page.tsx:397-404 | specified by `NewDeliverableSpec` |
| ProposalEditor.NewDeliverableSpec | src/app/proposals/new/page.tsx:397-404 | appends exactly {New Item, "", 0}, keeps pricing and the price sum, so balance is preserved |
| ProposalEditor.WithMilestoneName | src/app/proposals/new/page.tsx:426-430 | specified by `TimelineEditSpec` |
| ProposalEditor.WithDuration | src/app/proposals/new/page.tsx:436-440 | specified by `TimelineEditSpec` |
| ProposalEditor.TimelineEditSpec | src/app/proposals/new/page.tsx:426-440 | a milestone or duration edit changes that one field of one entry only, and preserves balance |
| ProposalEditor.EditScenario | src/app/proposals/new/page.tsx:104-112 | prices 100 and 250 with tax 10 give 350/360; adding a deliverable priced 50 gives 400/410 |
| ProposalEditor.GenerateRequest | src/app/proposals/new/page.tsx:49-52 | specified by `NewProposalPage.SendGenerate`: the form's six fields and the session user's name as the business name |
| ProposalEditor.SavePayload | src/app/proposals/new/page.tsx:73-90 | specified by `NewProposalPage.Save` and `SavedRecordSpec` |
| ProposalEditor.SavedRecordSpec | src/app/proposals/new/page.tsx:67-90 | a saved balanced draft is stored with the chosen status, no expiry, the session owner, subtotal = Σ price and total = subtotal + tax |
| ProposalEditor.NewProposalPage.constructor | src/app/proposals/new/page.tsx:12-25 | starts on step 1 with an empty form, no draft and no request in flight |
| ProposalEditor.NewProposalPage.SetClientField | src/app/proposals/new/page.tsx:163-216 | step 1 only; one client field changes |
| ProposalEditor.NewProposalPage.SelectIndustry | src/app/proposals/new/page.tsx:226-230 | step 1 only; the industry becomes a registry id |
| ProposalEditor.NewProposalPage.SetJobDescription | src/app/proposals/new/page.tsx:274-278 | step 2 only; only the job description changes |
| ProposalEditor.NewProposalPage.Continue | src/app/proposals/new/page.tsx:248-253 | moves to step 2 iff client name and industry are non-empty |
| ProposalEditor.NewProposalPage.BackToClientDetails | src/app/proposals/new/page.tsx:284 | step 2 back to 1, nothing else changes |
| ProposalEditor.NewProposalPage.SendGenerate | src/app/proposals/new/page.tsx:43-53 | nothing is sent while a request is in flight or for a blank job description; otherwise the request carries the form as it is at the click, and the route accepts it exactly when the client name is non-empty (the industry is always set by then); the page is then waiting |
| ProposalEditor.NewProposalPage.ReceiveGenerated | src/app/proposals/new/page.tsx:55-64 | when the in-flight request settles the page stops waiting; a reply becomes the draft and step 3 is shown from whatever step the user is on, with the form as it now is; a failure changes nothing else |
| ProposalEditor.NewProposalPage.BackToJobDescription | src/app/proposals/new/page.tsx:495 | step 3 back to 2, the draft is kept |
| ProposalEditor.NewProposalPage.EditTitle | src/app/proposals/new/page.tsx:329-331 | only the title changes |
| ProposalEditor.NewProposalPage.EditScope | src/app/proposals/new/page.tsx:343-345 | only the scope changes |
| ProposalEditor.NewProposalPage.EditTerms | src/app/proposals/new/page.tsx:455-457 | only the terms change |
| ProposalEditor.NewProposalPage.UpdateDeliverable | src/app/proposals/new/page.tsx:104-112 | the draft becomes the edited draft and is balanced |
| ProposalEditor.NewProposalPage.AddDeliverable | src/app/proposals/new/page.tsx:397-404 | appends the new item; a balanced draft stays balanced |
| ProposalEditor.NewProposalPage.EditMilestoneName | src/app/proposals/new/page.tsx:426-430 | only that milestone's name changes |
| ProposalEditor.NewProposalPage.EditDuration | src/app/proposals/new/page.tsx:436-440 | only that milestone's duration changes |
| ProposalEditor.NewProposalPage.Save | src/app/proposals/new/page.tsx:67-90 | the payload carries the chosen status, no owner or token, and the draft's subtotal, tax and total |
| Dashboard.ParseStatus | src/app/dashboard/page.tsx:22-29 | unknown exactly for strings outside the six names; the status's text is the string read |
| Dashboard.ParseStatusText | src/app/dashboard/page.tsx:22-29 | reading a status's text gives the status back |
| Dashboard.LoadedProposals | src/app/dashboard/page.tsx:48 | a non-array response yields the empty list |
| Dashboard.CountIn | src/app/dashboard/page.tsx:68-71 | a class count is at most the number of proposals |
| Dashboard.ComputeStats | src/app/dashboard/page.tsx:66-75 | total is the number of proposals and the four class counts together do not exceed it |
| Dashboard.CountInAppend | src/app/dashboard/page.tsx:68-71 | counting over a concatenation adds the counts |
| Dashboard.CountInUnion | src/app/dashboard/page.tsx:68-71 | counts of disjoint status classes add up to the count of their union |
| Dashboard.StatsPartition | src/app/dashboard/page.tsx:68-71 | draft + sent + accepted + declined is the number of proposals in those five statuses |
| Dashboard.TotalOrZero | src/app/dashboard/page.tsx:74 | specified by `StatsOfAppend`: a null total adds 0 to the accepted revenue |
| Dashboard.AcceptedValue | src/app/dashboard/page.tsx:72-74 | specified by `AcceptedValueAppend` and `StatsOfAppend` |
| Dashboard.AcceptedValueAppend | src/app/dashboard/page.tsx:72-74 | accepted revenue over a concatenation adds |
| Dashboard.StatsOfAppend | src/app/dashboard/page.tsx:66-75 | one more proposal adds 1 to total and 1 to exactly the count of its class (none for EXPIRED or unknown), and only an ACCEPTED one adds its total (null as 0) to the revenue |
| Dashboard.StatusBadge | src/app/dashboard/page.tsx:186-188 | each known status gets its colour; an unknown status gets the gray fallback |
| Dashboard.AmountCell | src/app/dashboard/page.tsx:194-196 | a dash exactly when the total is null or 0, else that amount |
| ProfileRoute.ProfileOf | src/app/api/user/profile/route.ts:12-24 | the profile holds exactly the eight selected columns |
| ProfileRoute.ProfileHidesPassword | src/app/api/user/profile/route.ts:12-24 | users differing only in password (and id) have the same profile |
| ProfileRoute.Updated | src/app/api/user/profile/route.ts:37-46 | specified by `UpdateWhitelist` and `UpdateIdempotent` |
| ProfileRoute.UpdateWhitelist | src/app/api/user/profile/route.ts:37-46 | only name, businessName, businessType, phone, address and website can change, each exactly as the body says; id, e-mail, password and logo are kept; other body fields are ignored |
| ProfileRoute.UpdateIdempotent | src/app/api/user/profile/route.ts:37-46 | applying the same update twice equals applying it once |
| ProfileRoute.UserStore.GetProfile | src/app/api/user/profile/route.ts:6-27 | 401 without session; a failing store query escapes unhandled; else the session user's profile or null |
| ProfileRoute.UserStore.PutProfile | src/app/api/user/profile/route.ts:29-50 | 401 without session; an unreadable body, a missing user or another store failure escapes unhandled with no change; else only the session user's record is updated and the whole record is returned |
| ProfileRoute.PutTouchesOnlySessionUser | src/app/api/user/profile/route.ts:38 | the update keeps the key set and every other user's record |

## Left out

- The prompt text (`src/lib/openai.ts:38-78`) and the provider call's model, temperature and token budget: the provider is an opaque function from the prompt's ingredients (template context, default terms, input) to a reply.
- `JSON.parse(...) as GeneratedProposal`: `parse` is an opaque function to a well-shaped draft or nothing. JSON of another shape, which the source passes on unchecked, is not represented.
- DraftGenerator.Excerpt: counts Dafny characters, not the UTF-16 code units `substring` counts.
- `businessType` in the generator input: it is declared but never read.
- JavaScript numbers: prices, subtotals, taxes and totals are integers. Float rounding, `NaN` and `toLocaleString` are not modelled. A non-numeric price (`Amount.Blank`) counts as 0.
- A tax that is a string: `subtotal + tax` would then concatenate text. The model's tax is a number or blank.
- A provider draft without `deliverables` or `pricing`: the editor's spread of `undefined` and `[...undefined]` are not modelled, because the draft's fields are always present.
- Non-string JSON values in request bodies: fields are strings or absent.
- Object-prototype keys such as `"constructor"` as a status: `statusColors[...]` would yield a truthy function, whereas the model treats them as unknown statuses.
- The page's `saving` flag, alerts, router pushes, `fetch`, and the loading and unauthenticated branches of the pages.
- ProposalsRoute.SortNewestFirstSpec: the order among proposals with equal `createdAt` is whatever the insertion sort gives; the store does not specify it.
- ProposalsRoute.LatestView: among views with equal `viewedAt`, which one is returned is not specified.
- The store's own validation, such as required columns and a date that does not parse: folded into the `fault` parameter.
- `generateShareToken` (`src/lib/utils.ts:23-25`) and the store's id generation: they are nondeterministic, so the token and id are parameters, and a clash is answered as a store failure.
- Session handling: it is the `session` parameter.
- The portal's view, accept and decline lifecycle: it is not implemented in the modelled files.
- `prisma/seed.ts`: not part of this model.

=== FILE: Dashboard.dfy ===
/** The dashboard: the fetched proposal list, the status statistics and
    accepted revenue folded over it, the status badge and the amount cell. */
module Dashboard {
  import opened Wrappers

  /** A proposal status as the dashboard reads the stored string. */
  datatype Status = Draft | Sent | Viewed | Accepted | Declined | Expired | Unknown(text: string)

  const KnownStatuses := ["DRAFT", "SENT", "VIEWED", "ACCEPTED", "DECLINED", "EXPIRED"]

  function StatusText(st: Status): string {
    match st
    case Draft => "DRAFT"
    case Sent => "SENT"
    case Viewed => "VIEWED"
    case Accepted => "ACCEPTED"
    case Declined => "DECLINED"
    case Expired => "EXPIRED"
    case Unknown(text) => text
  }

  /** Reads a status string; anything outside the six names is `Unknown`. */
  function ParseStatus(s: string): (r: Status)
    ensures r.Unknown? <==> s !in KnownStatuses
    ensures StatusText(r) == s
  {
    if s == "DRAFT" then Draft
    else if s == "SENT" then Sent
    else if s == "VIEWED" then Viewed
    else if s == "ACCEPTED" then Accepted
    else if s == "DECLINED" then Declined
    else if s == "EXPIRED" then Expired
    else Unknown(s)
  }

  /** Reading the text of a status gives the status back, so a status and
      its text determine each other. */
  lemma ParseStatusText(st: Status)
    requires st.Unknown? ==> st.text !in KnownStatuses
    ensures ParseStatus(StatusText(st)) == st
  {
  }

  /** The columns of a listed proposal the dashboard uses. */
  datatype ProposalRow = ProposalRow(
    id: string,
    title: string,
    clientName: string,
    clientCompany: Option<string>,
    status: string,
    total: Option<int>)

  /** The list response: a JSON array of proposals, or anything else (an
      error object from a failing route). */
  datatype Fetched = JsonArray(rows: seq<ProposalRow>) | NotAnArray

  /** `Array.isArray(data) ? data : []`. */
  function LoadedProposals(f: Fetched): (r: seq<ProposalRow>)
    ensures f.NotAnArray? ==> r == []
    ensures f.JsonArray? ==> r == f.rows
  {
    if f.JsonArray? then f.rows else []
  }

  /** Number of rows whose status lies in `group`. */
  function CountIn(ps: seq<ProposalRow>, group: set<Status>): (r: nat)
    ensures r <= |ps|
  {
    if ps == [] then 0
    else (if ParseStatus(ps[0].status) in group then 1 else 0) + CountIn(ps[1..], group)
  }

  /** `(p.total || 0)`. */
  function TotalOrZero(p: ProposalRow): int {
    if p.total.Some? then p.total.value else 0
  }

  /** The sum of `total || 0` over the ACCEPTED rows. */
  function AcceptedValue(ps: seq<ProposalRow>): int {
    if ps == [] then 0
    else (if ps[0].status == "ACCEPTED" then TotalOrZero(ps[0]) else 0) + AcceptedValue(ps[1..])
  }

  datatype Stats = Stats(total: nat, draft: nat, sent: nat, accepted: nat, declined: nat, totalValue: int)

  /** The `stats` object. */
  function ComputeStats(ps: seq<ProposalRow>): (r: Stats)
    ensures r.total == |ps|
    ensures r.draft + r.sent + r.accepted + r.declined <= r.total
  {
    StatsPartition(ps);
    Stats(|ps|, CountIn(ps, {Draft}), CountIn(ps, {Sent, Viewed}), CountIn(ps, {Accepted}),
      CountIn(ps, {Declined}), AcceptedValue(ps))
  }

  /** Counting over an append adds the two counts. */
  lemma {:induction false} CountInAppend(a: seq<ProposalRow>, b: seq<ProposalRow>, group: set<Status>)
    ensures CountIn(a + b, group) == CountIn(a, group) + CountIn(b, group)
    decreases |a|
  {
    if a == [] {
      assert a + b == b;
    } else {
      assert (a + b)[1..] == a[1..] + b;
      CountInAppend(a[1..], b, group);
    }
  }

  /** Counting two disjoint groups separately adds up to counting their
      union. */
  lemma {:induction false} CountInUnion(ps: seq<ProposalRow>, g: set<Status>, h: set<Status>)
    requires g !! h
    ensures CountIn(ps, g + h) == CountIn(ps, g) + CountIn(ps, h)
    decreases |ps|
  {
    if ps != [] {
      CountInUnion(ps[1..], g, h);
    }
  }

  /** The four counted classes are disjoint, so together they count the rows
      whose status is one of the five tracked ones, and no more rows than
      there are. */
  lemma StatsPartition(ps: seq<ProposalRow>)
    ensures CountIn(ps, {Draft}) + CountIn(ps, {Sent, Viewed}) + CountIn(ps, {Accepted}) + CountIn(ps, {Declined})
      == CountIn(ps, {Draft, Sent, Viewed, Accepted, Declined})
  {
    CountInUnion(ps, {Draft}, {Sent, Viewed});
    CountInUnion(ps, {Draft, Sent, Viewed}, {Accepted});
    CountInUnion(ps, {Draft, Sent, Viewed, Accepted}, {Declined});
    assert {Draft} + {Sent, Viewed} == {Draft, Sent, Viewed};
    assert {Draft, Sent, Viewed} + {Accepted} == {Draft, Sent, Viewed, Accepted};
    assert {Draft, Sent, Viewed, Accepted} + {Declined} == {Draft, Sent, Viewed, Accepted, Declined};
  }

  /** Accepted revenue over an append adds the two sums. */
  lemma {:induction false} AcceptedValueAppend(a: seq<ProposalRow>, b: seq<ProposalRow>)
    ensures AcceptedValue(a + b) == AcceptedValue(a) + AcceptedValue(b)
    decreases |a|
  {
    if a == [] {
      assert a + b == b;
    } else {
      assert (a + b)[1..] == a[1..] + b;
      AcceptedValueAppend(a[1..], b);
    }
  }

  /** One more proposal adds one to the total and, depending on its status,
      one to exactly one of the four class counts (EXPIRED and unknown
      statuses to none); only an ACCEPTED one adds its amount, a null total
      adding 0, to the accepted revenue. */
  lemma StatsOfAppend(ps: seq<ProposalRow>, p: ProposalRow)
    ensures var s, s' := ComputeStats(ps), ComputeStats(ps + [p]);
      var st := ParseStatus(p.status);
      s'.total == s.total + 1 &&
      s'.draft == s.draft + (if st == Draft then 1 else 0) &&
      s'.sent == s.sent + (if st == Sent || st == Viewed then 1 else 0) &&
      s'.accepted == s.accepted + (if st == Accepted then 1 else 0) &&
      s'.declined == s.declined + (if st == Declined then 1 else 0) &&
      s'.totalValue == s.totalValue + (if st == Accepted then TotalOrZero(p) else 0)
  {
    CountInAppend(ps, [p], {Draft});
    CountInAppend(ps, [p], {Sent, Viewed});
    CountInAppend(ps, [p], {Accepted});
    CountInAppend(ps, [p], {Declined});
    AcceptedValueAppend(ps, [p]);
    assert [p][1..] == [];
  }

  // ---------------------------------------------------------------------
  // Rendering helpers

  const GrayBadge := "bg-gray-100 text-gray-700"

  /** `statusColors[status] || <gray>`. */
  function StatusBadge(status: string): (r: string)
    ensures ParseStatus(status).Unknown? ==> r == GrayBadge
    ensures status == "DRAFT" ==> r == GrayBadge
    ensures status == "SENT" ==> r == "bg-blue-100 text-blue-700"
    ensures status == "VIEWED" ==> r == "bg-yellow-100 text-yellow-700"
    ensures status == "ACCEPTED" ==> r == "bg-green-100 text-green-700"
    ensures status == "DECLINED" ==> r == "bg-red-100 text-red-700"
    ensures status == "EXPIRED" ==> r == "bg-orange-100 text-orange-700"
  {
    match ParseStatus(status)
    case Draft => GrayBadge
    case Sent => "bg-blue-100 text-blue-700"
    case Viewed => "bg-yellow-100 text-yellow-700"
    case Accepted => "bg-green-100 text-green-700"
    case Declined => "bg-red-100 text-red-700"
    case Expired => "bg-orange-100 text-orange-700"
    case Unknown(_) => GrayBadge
  }

  /** What the amount column shows: a dash, or a dollar amount. */
  datatype AmountDisplay = Dash | Dollars(amount: int)

  /** `total ? "$" + total : "—"`. */
  function AmountCell(total: Option<int>): (r: AmountDisplay)
    ensures r == Dash <==> total.None? || total.value == 0
    ensures r.Dollars? ==> r.amount == total.value && r.amount != 0
  {
    if total.Some? && total.value != 0 then Dollars(total.value) else Dash
  }
}

=== FILE: DraftGenerator.dfy ===
/** The draft generator: resolves the industry template, gates the text
    generation provider on a usable credential, cleans code-fence markers
    from the provider's text, and falls back on a deterministic draft
    whenever anything goes wrong. */
module DraftGenerator {
  import opened Wrappers
  import opened JsText
  import opened Drafts
  import opened Templates

  /** `GenerateProposalInput` as the route handler fills it in. */
  datatype GenerateProposalInput = GenerateProposalInput(
    jobDescription: string,
    industry: string,
    clientName: string,
    clientCompany: Option<string>,
    businessName: Option<string>)

  /** What the provider is shown. The prompt text itself is not modelled;
      this is what it is built from: the template's prompt context and
      default terms, and the input fields. */
  datatype PromptParts = PromptParts(templateContext: string, defaultTerms: string, input: GenerateProposalInput)

  /** The provider call: it throws (network or API error), or it answers
      with `choices[0]?.message?.content`, which may be missing. */
  datatype ProviderReply = Threw | Replied(content: Option<string>)

  const PlaceholderApiKey := "sk-your-openai-api-key"

  /** The provider is used only when a key is configured and it is not the
      placeholder from the sample configuration. */
  predicate HasUsableKey(apiKey: Option<string>) {
    Truthy(apiKey) && apiKey.value != PlaceholderApiKey
  }

  /** The template's prompt context and default terms
      (`template?.promptContext || ""`, `template?.defaultTerms || ""`), or ""
      for both when the industry has no template. */
  function ResolveTemplate(templates: seq<IndustryTemplate>, industry: string): (r: (string, string))
    ensures FindTemplate(templates, industry).None? ==> r == ("", "")
    ensures FindTemplate(templates, industry).Some? ==>
      var t := FindTemplate(templates, industry).value;
      r == (t.promptContext, t.defaultTerms)
  {
    match FindTemplate(templates, industry)
    case None => ("", "")
    case Some(t) => (OrElse(Some(t.promptContext), ""), OrElse(Some(t.defaultTerms), ""))
  }

  // ---------------------------------------------------------------------
  // Cleaning the provider's text

  /** `s.replace(/<marker>\n?/g, "")`: every occurrence of `marker`, scanning
      left to right without overlap, is removed together with at most one
      newline that directly follows it. */
  function StripMarker(s: string, marker: string): (r: string)
    requires |marker| > 0
    ensures |r| <= |s|
    decreases |s|
  {
    if |s| == 0 then ""
    else if marker <= s then
      var rest := s[|marker|..];
      if |rest| > 0 && rest[0] == '\n' then StripMarker(rest[1..], marker) else StripMarker(rest, marker)
    else [s[0]] + StripMarker(s[1..], marker)
  }

  const Fence := "```"
  const JsonFence := "```json"

  /** The cleaning applied to the provider's content before parsing. */
  function Clean(content: string): string {
    Trim(StripMarker(StripMarker(content, JsonFence), Fence))
  }

  /** `s` contains three consecutive backticks somewhere. */
  predicate HasFence(s: string) {
    |s| >= 3 && (s[..3] == Fence || HasFence(s[1..]))
  }

  lemma StripKeepsLeadingTick(u: string)
    requires |StripMarker(u, Fence)| > 0 && StripMarker(u, Fence)[0] == '`'
    ensures |u| > 0 && u[0] == '`'
  {
  }

  /** Removal never brings two backticks together at the front. */
  lemma StripKeepsLeadingTicks(t: string)
    requires |StripMarker(t, Fence)| >= 2 && StripMarker(t, Fence)[..2] == "``"
    ensures |t| >= 2 && t[..2] == "``"
  {
    if !(Fence <= t) {
      var out := StripMarker(t, Fence);
      assert out == [t[0]] + StripMarker(t[1..], Fence);
      assert StripMarker(t[1..], Fence)[0] == out[1];
      StripKeepsLeadingTick(t[1..]);
    }
  }

  /** After removing every "```" marker no three backticks remain. */
  lemma {:induction false} StripLeavesNoFence(s: string)
    ensures !HasFence(StripMarker(s, Fence))
    decreases |s|
  {
    if |s| == 0 {
    } else if Fence <= s {
      var rest := s[3..];
      if |rest| > 0 && rest[0] == '\n' {
        StripLeavesNoFence(rest[1..]);
      } else {
        StripLeavesNoFence(rest);
      }
    } else {
      var x := StripMarker(s[1..], Fence);
      StripLeavesNoFence(s[1..]);
      var out := [s[0]] + x;
      assert out[1..] == x;
      if |out| >= 3 {
        if |x| >= 2 && x[..2] == "``" {
          StripKeepsLeadingTicks(s[1..]);
          assert s[..3] == [s[0]] + s[1..][..2];
          assert out[0] != '`';
        } else {
          assert out[1..3] == x[..2];
        }
      }
    }
  }

  lemma {:induction false} NoFenceInPrefix(s: string, n: nat)
    requires n <= |s| && !HasFence(s)
    ensures !HasFence(s[..n])
    decreases |s|
  {
    if n >= 3 {
      assert s[..n][..3] == s[..3];
      assert s[..n][1..] == s[1..][..n - 1];
      NoFenceInPrefix(s[1..], n - 1);
    }
  }

  lemma {:induction false} NoFenceInSuffix(s: string, n: nat)
    requires n <= |s| && !HasFence(s)
    ensures !HasFence(s[n..])
    decreases n
  {
    if n > 0 {
      if |s| >= 3 {
        assert s[1..][n - 1..] == s[n..];
        NoFenceInSuffix(s[1..], n - 1);
      }
    }
  }

  /** Cleaning removes every code-fence marker: the cleaned text holds no
      "```" (and so no "```json") anywhere. */
  lemma CleanRemovesFences(content: string)
    ensures !HasFence(Clean(content))
  {
    var stripped := StripMarker(StripMarker(content, JsonFence), Fence);
    StripLeavesNoFence(StripMarker(content, JsonFence));
    var t := TrimStart(stripped);
    NoFenceInSuffix(stripped, |stripped| - |t|);
    NoFenceInPrefix(t, |TrimEnd(t)|);
  }

  /** Text without a backtick is left alone by marker removal. */
  lemma {:induction false} StripWithoutTicks(s: string, marker: string)
    requires |marker| > 0 && marker[0] == '`'
    requires forall k :: 0 <= k < |s| ==> s[k] != '`'
    ensures StripMarker(s, marker) == s
    decreases |s|
  {
    if |s| > 0 {
      assert !(marker <= s) by {
        assert s[0] != marker[0];
      }
      StripWithoutTicks(s[1..], marker);
      assert [s[0]] + s[1..] == s;
    }
  }

  /** Text without a backtick is only trimmed. */
  lemma CleanWithoutTicks(content: string)
    requires forall k :: 0 <= k < |content| ==> content[k] != '`'
    ensures Clean(content) == Trim(content)
  {
    StripWithoutTicks(content, JsonFence);
    StripWithoutTicks(content, Fence);
  }

  /** `marker` occurs somewhere in `s`. */
  predicate Contains(s: string, marker: string)
    decreases |s|
  {
    marker <= s || (|s| > 0 && Contains(s[1..], marker))
  }

  /** Text in which the marker does not occur is kept as it is: stray
      backticks that do not form a marker survive. */
  lemma {:induction false} StripWithoutMarker(s: string, marker: string)
    requires |marker| > 0 && !Contains(s, marker)
    ensures StripMarker(s, marker) == s
    decreases |s|
  {
    if |s| > 0 {
      StripWithoutMarker(s[1..], marker);
      assert [s[0]] + s[1..] == s;
    }
  }

  /** Text without three consecutive backticks is kept as it is by the
      removal of "```". */
  lemma {:induction false} StripWithoutFence(s: string)
    requires !HasFence(s)
    ensures StripMarker(s, Fence) == s
    decreases |s|
  {
    if |s| > 0 {
      assert !(Fence <= s) by {
        if |s| >= 3 {
          assert s[..3] != Fence;
        }
      }
      StripWithoutFence(s[1..]);
      assert [s[0]] + s[1..] == s;
    }
  }

  /** A marker takes one directly following newline with it and no more;
      without a newline after it, only the marker goes. */
  lemma StripMarkerNewline(marker: string, s: string)
    requires |marker| > 0 && marker[0] != '\n'
    ensures StripMarker(marker + "\n" + s, marker) == StripMarker(s, marker)
    ensures StripMarker(marker + "\n\n" + s, marker) == "\n" + StripMarker(s, marker)
    ensures s == [] || s[0] != '\n' ==> StripMarker(marker + s, marker) == StripMarker(s, marker)
  {
    var t := marker + "\n" + s;
    assert marker <= t && t[|marker|..] == "\n" + s;
    assert ("\n" + s)[1..] == s;
    var u := marker + "\n\n" + s;
    assert marker <= u && u[|marker|..][1..] == "\n" + s;
    assert !(marker <= "\n" + s) by {
      assert ("\n" + s)[0] != marker[0];
    }
    var v := marker + s;
    assert marker <= v && v[|marker|..] == s;
  }

  /** Text before the first backtick passes through marker removal
      unchanged. */
  lemma {:induction false} StripAfterTickless(a: string, b: string, marker: string)
    requires |marker| > 0 && marker[0] == '`'
    requires forall k :: 0 <= k < |a| ==> a[k] != '`'
    ensures StripMarker(a + b, marker) == a + StripMarker(b, marker)
    decreases |a|
  {
    if |a| == 0 {
      assert a + b == b;
    } else {
      var s := a + b;
      assert !(marker <= s) by {
        assert s[0] == a[0] && a[0] != marker[0];
      }
      assert s[1..] == a[1..] + b;
      StripAfterTickless(a[1..], b, marker);
      assert a == [a[0]] + a[1..];
    }
  }

  /** Text shorter than the marker holds no marker. */
  lemma {:induction false} StripShorter(s: string, marker: string)
    requires 0 < |marker| && |s| < |marker|
    ensures StripMarker(s, marker) == s
    decreases |s|
  {
    if |s| > 0 {
      StripShorter(s[1..], marker);
      assert [s[0]] + s[1..] == s;
    }
  }

  /** A reply fenced as "```json", a newline, the JSON, a newline and
      "```" is cleaned to the trimmed JSON, provided the JSON itself holds
      no backtick. */
  lemma CleanFencedJson(j: string)
    requires forall k :: 0 <= k < |j| ==> j[k] != '`'
    ensures Clean(JsonFence + "\n" + j + "\n" + Fence) == Trim(j)
  {
    var tail := "\n" + Fence;
    assert JsonFence + "\n" + j + "\n" + Fence == JsonFence + "\n" + (j + tail);
    StripMarkerNewline(JsonFence, j + tail);
    StripAfterTickless(j, tail, JsonFence);
    StripAfterTickless("\n", Fence, JsonFence);
    StripShorter(Fence, JsonFence);
    assert StripMarker(JsonFence + "\n" + j + "\n" + Fence, JsonFence) == j + tail;
    StripAfterTickless(j, tail, Fence);
    StripAfterTickless("\n", Fence, Fence);
    assert Fence <= Fence && Fence[3..] == "";
    assert StripMarker(j + tail, Fence) == j + "\n";
    TrimTrailingNewline(j);
  }


  // ---------------------------------------------------------------------
  // The deterministic fallback draft

  /** The title prefix chosen per industry; any other id reads "Consulting". */
  function IndustryLabel(industry: string): (r: string)
    ensures industry == "general-contractor" ==> r == "Construction"
    ensures industry == "landscaping" ==> r == "Landscaping"
    ensures industry == "cleaning" ==> r == "Cleaning"
    ensures industry == "it-services" ==> r == "IT"
    ensures industry == "marketing-agency" ==> r == "Marketing"
    ensures industry !in ["general-contractor", "landscaping", "cleaning", "it-services", "marketing-agency"]
      ==> r == "Consulting"
  {
    if industry == "general-contractor" then "Construction"
    else if industry == "landscaping" then "Landscaping"
    else if industry == "cleaning" then "Cleaning"
    else if industry == "it-services" then "IT"
    else if industry == "marketing-agency" then "Marketing"
    else "Consulting"
  }

  /** `jobDescription.substring(0, 100)`. */
  function Excerpt(jobDescription: string): (r: string)
    ensures |r| <= 100 && r <= jobDescription
    ensures |jobDescription| <= 100 ==> r == jobDescription
    ensures |jobDescription| > 100 ==> |r| == 100
  {
    if |jobDescription| <= 100 then jobDescription else jobDescription[..100]
  }

  const ScopeOpening := "We are pleased to present this proposal for "

  /** The scope addresses the client's company when it is given, else the client. */
  function Addressee(input: GenerateProposalInput): string {
    OrElse(input.clientCompany, input.clientName)
  }

  const ScopeRegarding := ". Based on our discussion regarding \""
  const ScopeMiddle :=
    "...\", we have prepared a comprehensive plan to deliver " +
      "exceptional results.\n\nOur team at "
  const ScopeClosing :=
    " brings extensive experience in this area. We will " +
      "apply industry best practices and proven methodologies " +
      "to ensure your project is completed on time, within " +
      "budget, and to the highest standards of quality.\n\nThis " +
      "proposal outlines the full scope of work, timeline, " +
      "deliverables, and investment required to bring your " +
      "vision to life."

  function DemoScope(input: GenerateProposalInput): string {
    ScopeOpening + Addressee(input) + ScopeRegarding + Excerpt(input.jobDescription) +
    ScopeMiddle + OrElse(input.businessName, "our company") + ScopeClosing
  }

  const DemoDeliverables: seq<Deliverable> := [
    Deliverable("Discovery & Planning",
      "Initial consultation, requirements gathering, and " +
        "detailed project planning to ensure alignment on " +
        "goals and expectations.",
      Num(1500)),
    Deliverable("Core Implementation",
      "Primary execution of the project scope, including " +
        "all labor, materials, and coordination required.",
      Num(5500)),
    Deliverable("Quality Assurance & Review",
      "Thorough review and testing of all deliverables " +
        "to ensure they meet our quality standards and your " +
        "requirements.",
      Num(1200)),
    Deliverable("Final Delivery & Handoff",
      "Complete project delivery with documentation, training " +
        "if applicable, and a thorough walkthrough.",
      Num(800))
  ]

  const DemoTimeline: seq<Milestone> := [
    Milestone("Project Kickoff", "Week 1",
      "Initial meeting, requirements finalization, and " +
        "project planning."),
    Milestone("Phase 1 - Foundation", "Weeks 2-3",
      "Core groundwork and initial implementation begins."),
    Milestone("Phase 2 - Execution", "Weeks 4-6",
      "Primary work execution with regular progress updates."),
    Milestone("Review & Completion", "Week 7-8",
      "Final review, adjustments, and project handoff.")
  ]

  const DemoPricing := Pricing(9000, Num(0), 9000,
    "Payment terms: 50% due upon acceptance, 50% due " +
      "upon project completion. Prices valid for 30 days.")

  const GenericTerms :=
    "50% deposit required to begin work. Balance due " +
      "upon completion. All deliverables become property " +
      "of the client upon full payment. Changes to scope " +
      "may require a revised estimate."

  /** `template?.defaultTerms || <generic terms>`. */
  function DemoTerms(templates: seq<IndustryTemplate>, industry: string): (r: string)
    ensures FindTemplate(templates, industry).None? ==> r == GenericTerms
    ensures FindTemplate(templates, industry).Some? ==>
      r == OrElse(Some(FindTemplate(templates, industry).value.defaultTerms), GenericTerms)
  {
    match FindTemplate(templates, industry)
    case Some(t) => OrElse(Some(t.defaultTerms), GenericTerms)
    case None => GenericTerms
  }

  /** The four fixed prices add up to 9000. */
  lemma DemoDeliverablesSum()
    ensures PriceSum(DemoDeliverables) == 9000
  {
    var ds := DemoDeliverables;
    assert ds[1..][1..][1..][1..] == [];
    assert PriceSum(ds[1..][1..][1..]) == 800;
    assert PriceSum(ds[1..][1..]) == 2000;
    assert PriceSum(ds[1..]) == 7500;
  }

  /** `getDemoProposal`, given the template registry to search: a total
      function of its input. Its four deliverables are priced 1500, 5500,
      1200 and 800, and its pricing block is balanced against them. */
  function DemoProposal(templates: seq<IndustryTemplate>, input: GenerateProposalInput): (r: GeneratedProposal)
    ensures |r.deliverables| == 4
    ensures r.deliverables[0].price == Num(1500) && r.deliverables[1].price == Num(5500)
    ensures r.deliverables[2].price == Num(1200) && r.deliverables[3].price == Num(800)
    ensures Balanced(r)
    ensures r.pricing.subtotal == 9000 && r.pricing.tax == Num(0) && r.pricing.total == 9000
  {
    DemoDeliverablesSum();
    GeneratedProposal(
      IndustryLabel(input.industry) + " Proposal for " + input.clientName,
      DemoScope(input),
      DemoDeliverables,
      DemoTimeline,
      DemoPricing,
      DemoTerms(templates, input.industry))
  }

  /** The fallback's title is the industry label, " Proposal for ", and the
      client's name. */
  lemma DemoTitle(templates: seq<IndustryTemplate>, input: GenerateProposalInput)
    ensures DemoProposal(templates, input).title ==
      IndustryLabel(input.industry) + " Proposal for " + input.clientName
  {
  }

  /** The fallback's scope opens by naming the company when one is given and
      the client otherwise, and quotes at most the first 100 characters of
      the job description: the quote closes with `..."` right after them. */
  lemma DemoScopeNamesClient(templates: seq<IndustryTemplate>, input: GenerateProposalInput)
    ensures var scope := DemoProposal(templates, input).scope;
      var who := if Truthy(input.clientCompany) then input.clientCompany.value else input.clientName;
      var quoted := Excerpt(input.jobDescription);
      ScopeOpening + who + ScopeRegarding + quoted + ScopeMiddle <= scope &&
      |quoted| <= 100 && quoted <= input.jobDescription
  {
    var head := ScopeOpening + Addressee(input) + ScopeRegarding + Excerpt(input.jobDescription) + ScopeMiddle;
    PrefixOfAppend(head, OrElse(input.businessName, "our company") + ScopeClosing);
  }

  /** A string is a prefix of itself followed by anything. */
  lemma PrefixOfAppend(a: string, b: string)
    ensures a <= a + b
  {
    assert (a + b)[..|a|] == a;
  }

  /** Only the title, the scope and the terms depend on the input: any two
      inputs get the same deliverables, timeline and pricing, and two inputs
      in the same industry the same terms. */
  lemma DemoDeterministic(templates: seq<IndustryTemplate>, a: GenerateProposalInput, b: GenerateProposalInput)
    ensures DemoProposal(templates, a).deliverables == DemoProposal(templates, b).deliverables
    ensures DemoProposal(templates, a).timeline == DemoProposal(templates, b).timeline == DemoTimeline
    ensures DemoProposal(templates, a).pricing == DemoProposal(templates, b).pricing
    ensures a.industry == b.industry ==> DemoProposal(templates, a).terms == DemoProposal(templates, b).terms
  {
  }

  /** In the application's registry every entry has default terms, so the
      fallback's terms are the template's terms for a registered industry
      and the generic terms otherwise. */
  lemma DemoTermsFromRegistry(industry: string)
    ensures Lookup(industry).Some? ==> DemoTerms(IndustryTemplates, industry) == Lookup(industry).value.defaultTerms
    ensures Lookup(industry).None? ==> DemoTerms(IndustryTemplates, industry) == GenericTerms
  {
    RegistryEntriesComplete();
  }

  // ---------------------------------------------------------------------
  // generateProposal

  /** `generateProposal`, given the template registry, the configured key,
      the provider and `JSON.parse`. The provider and the parser are opaque:
      the provider is consulted only with a usable key; an exception, missing
      or empty content, or text that does not parse all lead to the fallback.
      The function is total: it never fails towards its caller. */
  function GenerateProposal(
    templates: seq<IndustryTemplate>,
    input: GenerateProposalInput,
    apiKey: Option<string>,
    provider: PromptParts -> ProviderReply,
    parse: string -> Option<GeneratedProposal>): GeneratedProposal
  {
    var (context, terms) := ResolveTemplate(templates, input.industry);
    if !HasUsableKey(apiKey) then DemoProposal(templates, input)
    else
      match provider(PromptParts(context, terms, input))
      case Threw => DemoProposal(templates, input)
      case Replied(content) =>
        if !Truthy(content) then DemoProposal(templates, input)
        else
          match parse(Clean(content.value))
          case None => DemoProposal(templates, input)
          case Some(draft) => draft
  }

  /** `draft` is what the provider path yields: the key is usable, the
      provider answered with non-empty content, and the cleaned content
      parses to `draft`. */
  predicate ProviderDraft(
    templates: seq<IndustryTemplate>,
    input: GenerateProposalInput,
    apiKey: Option<string>,
    provider: PromptParts -> ProviderReply,
    parse: string -> Option<GeneratedProposal>,
    draft: GeneratedProposal)
  {
    var (context, terms) := ResolveTemplate(templates, input.industry);
    var reply := provider(PromptParts(context, terms, input));
    HasUsableKey(apiKey) && reply.Replied? && Truthy(reply.content) &&
    parse(Clean(reply.content.value)) == Some(draft)
  }

  /** Without a usable key the result is the fallback, whatever the
      provider or the parser would have done: neither is consulted. */
  lemma NoKeyMeansFallback(
    templates: seq<IndustryTemplate>,
    input: GenerateProposalInput,
    apiKey: Option<string>,
    provider: PromptParts -> ProviderReply,
    parse: string -> Option<GeneratedProposal>,
    provider': PromptParts -> ProviderReply,
    parse': string -> Option<GeneratedProposal>)
    requires !HasUsableKey(apiKey)
    ensures GenerateProposal(templates, input, apiKey, provider, parse) == DemoProposal(templates, input)
    ensures GenerateProposal(templates, input, apiKey, provider, parse) ==
            GenerateProposal(templates, input, apiKey, provider', parse')
  {
  }

  /** Every path ends in a draft: the parsed provider reply when the key is
      usable and the reply is non-empty and parses, the fallback otherwise. */
  lemma GenerateOutcome(
    templates: seq<IndustryTemplate>,
    input: GenerateProposalInput,
    apiKey: Option<string>,
    provider: PromptParts -> ProviderReply,
    parse: string -> Option<GeneratedProposal>)
    ensures var r := GenerateProposal(templates, input, apiKey, provider, parse);
      ProviderDraft(templates, input, apiKey, provider, parse, r) ||
      (r == DemoProposal(templates, input) &&
       forall d :: !ProviderDraft(templates, input, apiKey, provider, parse, d))
  {
  }

  /** Whenever the provider path does not yield a draft, the result is
      balanced: its subtotal is the sum of its prices and its total the
      subtotal plus tax. */
  lemma FallbackIsBalanced(
    templates: seq<IndustryTemplate>,
    input: GenerateProposalInput,
    apiKey: Option<string>,
    provider: PromptParts -> ProviderReply,
    parse: string -> Option<GeneratedProposal>)
    requires forall d :: !ProviderDraft(templates, input, apiKey, provider, parse, d)
    ensures Balanced(GenerateProposal(templates, input, apiKey, provider, parse))
  {
    GenerateOutcome(templates, input, apiKey, provider, parse);
  }

  /** The credential-less scenario: "renovate kitchen" for Sarah, general
      contractor, with a registry whose general-contractor entry has terms
      (the application's registry is one, see `Templates.LookupGeneralContractor`). */
  lemma KitchenScenario(
    templates: seq<IndustryTemplate>,
    provider: PromptParts -> ProviderReply,
    parse: string -> Option<GeneratedProposal>)
    requires FindTemplate(templates, "general-contractor").Some?
    requires FindTemplate(templates, "general-contractor").value.defaultTerms != ""
    ensures var r := GenerateProposal(templates,
        GenerateProposalInput("renovate kitchen", "general-contractor", "Sarah", None, None),
        None, provider, parse);
      r.title == "Construction Proposal for Sarah" &&
      |r.deliverables| == 4 && PriceSum(r.deliverables) == 9000 && r.pricing.total == 9000 &&
      r.terms == FindTemplate(templates, "general-contractor").value.defaultTerms
  {
    var input := GenerateProposalInput("renovate kitchen", "general-contractor", "Sarah", None, None);
    assert !HasUsableKey(None);
    assert GenerateProposal(templates, input, None, provider, parse) == DemoProposal(templates, input);
    KitchenTitle();
  }

  lemma KitchenTitle()
    ensures IndustryLabel("general-contractor") + " Proposal for " + "Sarah" == "Construction Proposal for Sarah"
  {
  }
}

=== FILE: Drafts.dfy ===
/** The shape of a proposal body as the draft generator returns it and the
    editor edits it (the `GeneratedProposal` interface), and the price fold
    that ties a draft's deliverables to its pricing block. */
module Drafts {

  /** A JSON value used as a number. `Blank` stands for anything that
      `Number(x) || 0` turns into 0 without being the number 0: a missing
      field, `null`, or text that is not a number. Prices are whole
      amounts here; floating point is not modelled. */
  datatype Amount = Num(value: int) | Blank

  /** `Number(a) || 0`. */
  function NumberOrZero(a: Amount): (r: int)
    ensures a.Num? ==> r == a.value
    ensures a.Blank? ==> r == 0
  {
    if a.Num? then a.value else 0
  }

  datatype Deliverable = Deliverable(item: string, description: string, price: Amount)

  datatype Milestone = Milestone(milestone: string, duration: string, description: string)

  datatype Pricing = Pricing(subtotal: int, tax: Amount, total: int, notes: string)

  datatype GeneratedProposal = GeneratedProposal(
    title: string,
    scope: string,
    deliverables: seq<Deliverable>,
    timeline: seq<Milestone>,
    pricing: Pricing,
    terms: string)

  /** `deliverables.reduce((sum, d) => sum + (Number(d.price) || 0), 0)`. */
  function PriceSum(ds: seq<Deliverable>): int
  {
    if ds == [] then 0 else NumberOrZero(ds[0].price) + PriceSum(ds[1..])
  }

  /** The pricing invariant the editor maintains: the subtotal is the sum of
      the deliverable prices and the total is the subtotal plus the tax
      (a missing tax counting as 0). */
  predicate Balanced(p: GeneratedProposal) {
    p.pricing.subtotal == PriceSum(p.deliverables) &&
    p.pricing.total == p.pricing.subtotal + NumberOrZero(p.pricing.tax)
  }

  /** Summing over a concatenation adds the two sums. */
  lemma {:induction false} PriceSumAppend(a: seq<Deliverable>, b: seq<Deliverable>)
    ensures PriceSum(a + b) == PriceSum(a) + PriceSum(b)
    decreases |a|
  {
    if a == [] {
      assert a + b == b;
    } else {
      assert (a + b)[1..] == a[1..] + b;
      PriceSumAppend(a[1..], b);
    }
  }

  /** Replacing one deliverable changes the sum by exactly the difference of
      the two prices. */
  lemma {:induction false} PriceSumUpdate(ds: seq<Deliverable>, i: nat, d: Deliverable)
    requires i < |ds|
    ensures PriceSum(ds[i := d]) == PriceSum(ds) - NumberOrZero(ds[i].price) + NumberOrZero(d.price)
  {
    var pre, post := ds[..i], ds[i + 1..];
    assert ds == pre + [ds[i]] + post;
    assert ds[i := d] == pre + [d] + post;
    PriceSumAppend(pre + [ds[i]], post);
    PriceSumAppend(pre + [d], post);
    PriceSumAppend(pre, [ds[i]]);
    PriceSumAppend(pre, [d]);
    assert PriceSum([ds[i]]) == NumberOrZero(ds[i].price) by {
      assert [ds[i]][1..] == [];
    }
    assert PriceSum([d]) == NumberOrZero(d.price) by {
      assert [d][1..] == [];
    }
  }
}

=== FILE: GenerateRoute.dfy ===
/** `POST /api/proposals/generate`: authentication first, then the three
    required fields, then the draft generator. */
module GenerateRoute {
  import opened Wrappers
  import opened JsText
  import opened Drafts
  import opened Templates
  import opened DraftGenerator

  /** The JSON body as the route reads it. Any field may be missing; the
      editor page also sends the client's e-mail and phone, which the route
      ignores. */
  datatype GenerateBody = GenerateBody(
    jobDescription: Option<string>,
    industry: Option<string>,
    clientName: Option<string>,
    clientCompany: Option<string>,
    businessName: Option<string>,
    clientEmail: Option<string>,
    clientPhone: Option<string>)

  const Unauthorized := "Unauthorized"
  const MissingFields := "Missing required fields"
  const GenerateFailed := "Failed to generate proposal"

  /** `jobDescription && industry && clientName`. */
  predicate RequiredFieldsPresent(b: GenerateBody) {
    Truthy(b.jobDescription) && Truthy(b.industry) && Truthy(b.clientName)
  }

  /** The generator input: exactly the five fields the route destructures. */
  function GeneratorInput(b: GenerateBody): (r: GenerateProposalInput)
    requires RequiredFieldsPresent(b)
    ensures Some(r.jobDescription) == b.jobDescription && Some(r.industry) == b.industry
    ensures Some(r.clientName) == b.clientName
    ensures r.clientCompany == b.clientCompany && r.businessName == b.businessName
  {
    GenerateProposalInput(b.jobDescription.value, b.industry.value, b.clientName.value,
      b.clientCompany, b.businessName)
  }

  /** The handler. `body` is `None` when the request body is not valid
      JSON, or is JSON `null`; reading or destructuring it then throws
      inside the `try`, which answers 500. Any other JSON value destructures
      to absent fields and is answered 400.
      The generator itself never throws (see `DraftGenerator.GenerateOutcome`). */
  function Post(
    session: Option<UserId>,
    body: Option<GenerateBody>,
    apiKey: Option<string>,
    provider: PromptParts -> ProviderReply,
    parse: string -> Option<GeneratedProposal>): Response<GeneratedProposal>
  {
    if session.None? then Err(401, Unauthorized)
    else if body.None? then Err(500, GenerateFailed)
    else if !RequiredFieldsPresent(body.value) then Err(400, MissingFields)
    else Ok(GenerateProposal(IndustryTemplates, GeneratorInput(body.value), apiKey, provider, parse))
  }

  /** Without a session the answer is 401 whatever the body, the key, the
      provider or the parser: none of them is looked at. */
  lemma UnauthenticatedFirst(
    body: Option<GenerateBody>, apiKey: Option<string>,
    provider: PromptParts -> ProviderReply, parse: string -> Option<GeneratedProposal>,
    body': Option<GenerateBody>, apiKey': Option<string>,
    provider': PromptParts -> ProviderReply, parse': string -> Option<GeneratedProposal>)
    ensures Post(None, body, apiKey, provider, parse) == Err(401, Unauthorized)
    ensures Post(None, body, apiKey, provider, parse) == Post(None, body', apiKey', provider', parse')
  {
  }

  /** With a session and a readable body that lacks one of the required
      fields, the answer is 400 before the generator is reached: it does not
      depend on the key, the provider or the parser. */
  lemma MissingFieldsBeforeGenerator(
    user: UserId, body: GenerateBody, apiKey: Option<string>,
    provider: PromptParts -> ProviderReply, parse: string -> Option<GeneratedProposal>,
    apiKey': Option<string>,
    provider': PromptParts -> ProviderReply, parse': string -> Option<GeneratedProposal>)
    requires !RequiredFieldsPresent(body)
    ensures Post(Some(user), Some(body), apiKey, provider, parse) == Err(400, MissingFields)
    ensures Post(Some(user), Some(body), apiKey, provider, parse) ==
            Post(Some(user), Some(body), apiKey', provider', parse')
  {
  }

  /** The route succeeds exactly for an authenticated, readable request with
      the three required fields; its only error statuses are 401, 400 and
      500, and 500 only for an unreadable body. A successful answer is either
      the provider's parsed draft or the fallback built from exactly the
      five fields of the body. */
  lemma PostOutcome(
    session: Option<UserId>, body: Option<GenerateBody>, apiKey: Option<string>,
    provider: PromptParts -> ProviderReply, parse: string -> Option<GeneratedProposal>)
    ensures var r := Post(session, body, apiKey, provider, parse);
      (r.Ok? <==> session.Some? && body.Some? && RequiredFieldsPresent(body.value)) &&
      !r.Unhandled? &&
      (r.Err? ==> r.status == 401 || r.status == 400 || r.status == 500) &&
      (r.Err? && r.status == 500 <==> session.Some? && body.None?)
    ensures var r := Post(session, body, apiKey, provider, parse);
      r.Ok? ==>
        var input := GenerateProposalInput(body.value.jobDescription.value, body.value.industry.value,
          body.value.clientName.value, body.value.clientCompany, body.value.businessName);
        ProviderDraft(IndustryTemplates, input, apiKey, provider, parse, r.body) ||
        r.body == DemoProposal(IndustryTemplates, input)
  {
    if session.Some? && body.Some? && RequiredFieldsPresent(body.value) {
      GenerateOutcome(IndustryTemplates, GeneratorInput(body.value), apiKey, provider, parse);
    }
  }
}

=== FILE: JsText.dfy ===
/** The few JavaScript string semantics the application relies on:
    truthiness of an optional string, `a || b`, and `String.prototype.trim`. */
module JsText {
  import opened Wrappers

  /** `!!s` for a value that is either a string or absent: the empty string
      and a missing value are both falsy. */
  predicate Truthy(s: Option<string>) {
    s.Some? && s.value != ""
  }

  /** `s || fallback` for a value that is either a string or absent. */
  function OrElse(s: Option<string>, fallback: string): (r: string)
    ensures Truthy(s) ==> r == s.value
    ensures !Truthy(s) ==> r == fallback
  {
    if s.Some? && s.value != "" then s.value else fallback
  }

  /** The characters `trim` removes: ECMAScript WhiteSpace and LineTerminator. */
  predicate IsJsWhitespace(c: char) {
    c == '\t' || c == '\n' || c == '\U{000B}' || c == '\U{000C}' || c == '\r' ||
    c == ' ' || c == '\U{00A0}' || c == '\U{1680}' ||
    ('\U{2000}' <= c <= '\U{200A}') ||
    c == '\U{2028}' || c == '\U{2029}' || c == '\U{202F}' || c == '\U{205F}' ||
    c == '\U{3000}' || c == '\U{FEFF}'
  }

  /** Drops leading whitespace. */
  function TrimStart(s: string): (r: string)
    ensures |r| <= |s| && r == s[|s| - |r|..]
    ensures |r| > 0 ==> !IsJsWhitespace(r[0])
    ensures forall k :: 0 <= k < |s| - |r| ==> IsJsWhitespace(s[k])
  {
    if |s| > 0 && IsJsWhitespace(s[0]) then TrimStart(s[1..]) else s
  }

  /** Drops trailing whitespace. */
  function TrimEnd(s: string): (r: string)
    ensures |r| <= |s| && r == s[..|r|]
    ensures |r| > 0 ==> !IsJsWhitespace(r[|r| - 1])
    ensures forall k :: |r| <= k < |s| ==> IsJsWhitespace(s[k])
  {
    if |s| > 0 && IsJsWhitespace(s[|s| - 1]) then TrimEnd(s[..|s| - 1]) else s
  }

  /** `s.trim()`. */
  function Trim(s: string): (r: string)
    ensures |r| > 0 ==> !IsJsWhitespace(r[0]) && !IsJsWhitespace(r[|r| - 1])
    ensures var a := |s| - |TrimStart(s)|;
      a + |r| <= |s| && r == s[a..a + |r|] &&
      forall k :: 0 <= k < a || a + |r| <= k < |s| ==> IsJsWhitespace(s[k])
  {
    TrimEnd(TrimStart(s))
  }

  /** `s.trim()` is empty exactly when `s` consists of whitespace only. */
  lemma {:induction false} TrimEmptyIffBlank(s: string)
    ensures Trim(s) == "" <==> forall k :: 0 <= k < |s| ==> IsJsWhitespace(s[k])
  {
    var t := TrimStart(s);
    if Trim(s) == "" {
      assert |t| == 0;
    } else {
      assert |t| > 0;
      assert !IsJsWhitespace(t[0]);
      assert s[|s| - |t|] == t[0];
    }
  }

  /** Leading whitespace is dropped the same way when a newline is
      appended. */
  lemma {:induction false} TrimStartNewline(s: string)
    ensures TrimStart(s + "\n") == (if TrimStart(s) == "" then "" else TrimStart(s) + "\n")
    decreases |s|
  {
    if |s| == 0 {
      assert s + "\n" == "\n";
      assert "\n"[1..] == "";
    } else if IsJsWhitespace(s[0]) {
      assert (s + "\n")[1..] == s[1..] + "\n";
      TrimStartNewline(s[1..]);
    }
  }

  /** A trailing newline makes no difference to `trim`. */
  lemma TrimTrailingNewline(s: string)
    ensures Trim(s + "\n") == Trim(s)
  {
    TrimStartNewline(s);
    var t := TrimStart(s);
    if t != "" {
      assert (t + "\n")[..|t|] == t;
    }
  }
}

=== FILE: ProfileRoute.dfy ===
/** `GET` and `PUT /api/user/profile` over an in-memory user table: the
    signed-in user's profile projection, and an update restricted to six
    whitelisted fields. */
module ProfileRoute {
  import opened Wrappers

  /** A stored user. Nullable columns are `Option`s. */
  datatype User = User(
    id: UserId,
    name: Option<string>,
    email: string,
    password: Option<string>,
    businessName: Option<string>,
    businessType: Option<string>,
    phone: Option<string>,
    address: Option<string>,
    website: Option<string>,
    logoUrl: Option<string>)

  /** The eight selected columns; the password and the id are not among them. */
  datatype Profile = Profile(
    name: Option<string>,
    email: string,
    businessName: Option<string>,
    businessType: Option<string>,
    phone: Option<string>,
    address: Option<string>,
    website: Option<string>,
    logoUrl: Option<string>)

  /** A field of the update body: `Keep` when the body does not carry it
      (an `undefined` value, which the store skips), else the value to
      write, possibly null. */
  datatype Patch<T> = Keep | Set(value: T)

  function Apply<T>(p: Patch<T>, current: T): T {
    if p.Set? then p.value else current
  }

  /** The update body. Clients may send other fields too (an e-mail, a
      password, a logo); the handler never reads them. */
  datatype ProfileBody = ProfileBody(
    name: Patch<Option<string>>,
    businessName: Patch<Option<string>>,
    businessType: Patch<Option<string>>,
    phone: Patch<Option<string>>,
    address: Patch<Option<string>>,
    website: Patch<Option<string>>,
    email: Patch<string>,
    password: Patch<Option<string>>,
    logoUrl: Patch<Option<string>>)

  const Unauthorized := "Unauthorized"

  /** The `select` projection. */
  function ProfileOf(u: User): (r: Profile)
    ensures r.name == u.name && r.email == u.email && r.logoUrl == u.logoUrl
    ensures r.businessName == u.businessName && r.businessType == u.businessType
    ensures r.phone == u.phone && r.address == u.address && r.website == u.website
  {
    Profile(u.name, u.email, u.businessName, u.businessType, u.phone, u.address, u.website, u.logoUrl)
  }

  /** Two users with the same selected columns have the same profile,
      whatever their passwords: the password never reaches the answer. */
  lemma ProfileHidesPassword(u: User, v: User)
    requires u.(password := v.password, id := v.id) == v
    ensures ProfileOf(u) == ProfileOf(v)
  {
  }

  /** The `data` of the update: the six whitelisted fields. */
  function Updated(u: User, b: ProfileBody): User {
    u.(name := Apply(b.name, u.name),
       businessName := Apply(b.businessName, u.businessName),
       businessType := Apply(b.businessType, u.businessType),
       phone := Apply(b.phone, u.phone),
       address := Apply(b.address, u.address),
       website := Apply(b.website, u.website))
  }

  /** The update writes exactly the six whitelisted fields that the body
      carries; the id, e-mail, password and logo never change, whatever the
      body holds for them. */
  lemma UpdateWhitelist(u: User, b: ProfileBody)
    ensures var w := Updated(u, b);
      w.id == u.id && w.email == u.email && w.password == u.password && w.logoUrl == u.logoUrl
    ensures var w := Updated(u, b);
      (b.name.Set? ==> w.name == b.name.value) && (b.name.Keep? ==> w.name == u.name) &&
      (b.businessName.Set? ==> w.businessName == b.businessName.value) &&
      (b.businessName.Keep? ==> w.businessName == u.businessName) &&
      (b.businessType.Set? ==> w.businessType == b.businessType.value) &&
      (b.businessType.Keep? ==> w.businessType == u.businessType) &&
      (b.phone.Set? ==> w.phone == b.phone.value) && (b.phone.Keep? ==> w.phone == u.phone) &&
      (b.address.Set? ==> w.address == b.address.value) && (b.address.Keep? ==> w.address == u.address) &&
      (b.website.Set? ==> w.website == b.website.value) && (b.website.Keep? ==> w.website == u.website)
    ensures forall b': ProfileBody ::
      b'.name == b.name && b'.businessName == b.businessName && b'.businessType == b.businessType &&
      b'.phone == b.phone && b'.address == b.address && b'.website == b.website ==>
        Updated(u, b') == Updated(u, b)
  {
  }

  /** Sending the same update twice has the effect of sending it once. */
  lemma UpdateIdempotent(u: User, b: ProfileBody)
    ensures Updated(Updated(u, b), b) == Updated(u, b)
  {
  }

  /** The user table, keyed by id. */
  class UserStore {
    var users: map<UserId, User>

    ghost predicate Valid()
      reads this
    {
      forall k :: k in users ==> users[k].id == k
    }

    constructor(initial: map<UserId, User>)
      requires forall k :: k in initial ==> initial[k].id == k
      ensures Valid() && users == initial
    {
      users := initial;
    }

    /** `GET`: the session user's profile, or JSON null when no user has
        that id. `fault` stands for a failing store query; with no
        try/catch it escapes the handler. */
    function GetProfile(session: Option<UserId>, fault: bool): (r: Response<Option<Profile>>)
      reads this
      ensures session.None? ==> r == Err(401, Unauthorized)
      ensures session.Some? && fault ==> r == Unhandled
      ensures session.Some? && !fault ==> r.Ok?
      ensures session.Some? && !fault && session.value in users ==> r.body == Some(ProfileOf(users[session.value]))
      ensures session.Some? && !fault && session.value !in users ==> r.body.None?
    {
      if session.None? then Err(401, Unauthorized)
      else if fault then Unhandled
      else if session.value in users then Ok(Some(ProfileOf(users[session.value])))
      else Ok(None)
    }

    /** `PUT`. `body` is `None` when the request body is not JSON. There is
        no try/catch: an unreadable body, or an update of a user that does
        not exist, escapes the handler (`Unhandled`) and changes nothing; so
        does any other failure of the store update (`fault`). Otherwise only the session user's record changes, and the answer is
        that whole updated record. */
    method PutProfile(session: Option<UserId>, body: Option<ProfileBody>, fault: bool) returns (r: Response<User>)
      requires Valid()
      modifies this
      ensures Valid()
      ensures session.None? ==> r == Err(401, Unauthorized) && users == old(users)
      ensures session.Some? && (body.None? || fault || session.value !in old(users)) ==>
        r == Unhandled && users == old(users)
      ensures session.Some? && body.Some? && !fault && session.value in old(users) ==>
        r == Ok(Updated(old(users)[session.value], body.value)) &&
        users == old(users)[session.value := r.body]
    {
      if session.None? {
        return Err(401, Unauthorized);
      }
      if body.None? || fault || session.value !in users {
        return Unhandled;
      }
      var id := session.value;
      var updated := Updated(users[id], body.value);
      users := users[id := updated];
      r := Ok(updated);
    }
  }

  /** An update leaves every other user's record and the table's key set as
      they were. */
  lemma PutTouchesOnlySessionUser(users: map<UserId, User>, id: UserId, b: ProfileBody)
    requires id in users
    ensures var users' := users[id := Updated(users[id], b)];
      users'.Keys == users.Keys &&
      forall k :: k in users && k != id ==> users'[k] == users[k]
  {
  }
}

=== FILE: ProposalEditor.dfy ===
/** The three-step "new proposal" page: client details, job description,
    then review and edit of the generated draft. The page state is the
    current step, the client form and the draft; each handler of the page
    is a method guarded by the step in which its control is shown. */
module ProposalEditor {
  import opened Wrappers
  import opened JsText
  import opened Drafts
  import opened Templates
  import opened GenerateRoute
  import opened ProposalsRoute

  /** The form state; every field starts as "". */
  datatype ClientForm = ClientForm(
    clientName: string,
    clientEmail: string,
    clientCompany: string,
    clientPhone: string,
    industry: string,
    jobDescription: string)

  const EmptyForm := ClientForm("", "", "", "", "", "")

  /** The four free-text inputs of step 1. */
  datatype ClientField = ClientName | ClientEmail | ClientCompany | ClientPhone

  function FieldValue(form: ClientForm, f: ClientField): string {
    match f
    case ClientName => form.clientName
    case ClientEmail => form.clientEmail
    case ClientCompany => form.clientCompany
    case ClientPhone => form.clientPhone
  }

  /** `setForm({ ...form, [f]: value })`: only field `f` changes. */
  function WithField(form: ClientForm, f: ClientField, value: string): (r: ClientForm)
    ensures FieldValue(r, f) == value
    ensures forall g :: g != f ==> FieldValue(r, g) == FieldValue(form, g)
    ensures r.industry == form.industry && r.jobDescription == form.jobDescription
  {
    match f
    case ClientName => form.(clientName := value)
    case ClientEmail => form.(clientEmail := value)
    case ClientCompany => form.(clientCompany := value)
    case ClientPhone => form.(clientPhone := value)
  }

  /** The generate request body: the whole form plus the signed-in user's
      name as the business name (dropped from the JSON when absent). */
  function GenerateRequest(form: ClientForm, sessionName: Option<string>): GenerateBody {
    GenerateBody(Some(form.jobDescription), Some(form.industry), Some(form.clientName),
      Some(form.clientCompany), sessionName, Some(form.clientEmail), Some(form.clientPhone))
  }

  // ---------------------------------------------------------------------
  // Draft edits (step 3)

  /** An edit of one deliverable field. A price typed into the number
      input arrives as `Number(value)`, a number. */
  datatype DeliverableEdit = SetItem(item: string) | SetDescription(description: string) | SetPrice(price: int)

  /** `{ ...d, [field]: value }`: the edited field takes the new value and
      the other two keep theirs. */
  function ApplyEdit(d: Deliverable, e: DeliverableEdit): (r: Deliverable)
    ensures r.item == (if e.SetItem? then e.item else d.item)
    ensures r.description == (if e.SetDescription? then e.description else d.description)
    ensures r.price == (if e.SetPrice? then Num(e.price) else d.price)
  {
    match e
    case SetItem(item) => d.(item := item)
    case SetDescription(description) => d.(description := description)
    case SetPrice(price) => d.(price := Num(price))
  }

  /** `updateDeliverable(i, field, value)`: slot `i` of a copy of the
      deliverables is edited, the subtotal is refolded over the copy and the
      total is the subtotal plus `tax || 0`. */
  function WithDeliverableEdit(p: GeneratedProposal, i: nat, e: DeliverableEdit): GeneratedProposal
    requires i < |p.deliverables|
  {
    var updated := p.deliverables[i := ApplyEdit(p.deliverables[i], e)];
    var subtotal := PriceSum(updated);
    p.(deliverables := updated,
       pricing := p.pricing.(subtotal := subtotal, total := subtotal + NumberOrZero(p.pricing.tax)))
  }

  /** The deliverable added by "+ Add Deliverable". */
  const NewItem := Deliverable("New Item", "", Num(0))

  /** "+ Add Deliverable": appends the new item; the pricing is not touched. */
  function WithNewDeliverable(p: GeneratedProposal): GeneratedProposal {
    p.(deliverables := p.deliverables + [NewItem])
  }

  /** A milestone-name edit of timeline entry `i`. */
  function WithMilestoneName(p: GeneratedProposal, i: nat, text: string): GeneratedProposal
    requires i < |p.timeline|
  {
    p.(timeline := p.timeline[i := p.timeline[i].(milestone := text)])
  }

  /** A duration edit of timeline entry `i`. */
  function WithDuration(p: GeneratedProposal, i: nat, text: string): GeneratedProposal
    requires i < |p.timeline|
  {
    p.(timeline := p.timeline[i := p.timeline[i].(duration := text)])
  }

  /** A deliverable edit changes slot `i` only and keeps the title, scope,
      timeline, terms, tax and notes; afterwards the draft is balanced
      whatever it was before, and when it was balanced before, the subtotal
      and the total move by exactly the change of that one price. */
  lemma DeliverableEditSpec(p: GeneratedProposal, i: nat, e: DeliverableEdit)
    requires i < |p.deliverables|
    ensures var q := WithDeliverableEdit(p, i, e);
      |q.deliverables| == |p.deliverables| &&
      q.deliverables[i] == ApplyEdit(p.deliverables[i], e) &&
      (forall k :: 0 <= k < |p.deliverables| && k != i ==> q.deliverables[k] == p.deliverables[k]) &&
      q.title == p.title && q.scope == p.scope && q.timeline == p.timeline && q.terms == p.terms &&
      q.pricing.tax == p.pricing.tax && q.pricing.notes == p.pricing.notes
    ensures Balanced(WithDeliverableEdit(p, i, e))
    ensures Balanced(p) ==>
      var delta := NumberOrZero(ApplyEdit(p.deliverables[i], e).price) - NumberOrZero(p.deliverables[i].price);
      WithDeliverableEdit(p, i, e).pricing.subtotal == p.pricing.subtotal + delta &&
      WithDeliverableEdit(p, i, e).pricing.total == p.pricing.total + delta
  {
    PriceSumUpdate(p.deliverables, i, ApplyEdit(p.deliverables[i], e));
  }

  /** Adding a deliverable appends exactly the new item, leaves the sum of
      prices as it was (the new price is 0) and so keeps a balanced draft
      balanced. */
  lemma NewDeliverableSpec(p: GeneratedProposal)
    ensures var q := WithNewDeliverable(p);
      q.deliverables[..|p.deliverables|] == p.deliverables &&
      q.deliverables[|p.deliverables|] == NewItem &&
      |q.deliverables| == |p.deliverables| + 1 &&
      q.pricing == p.pricing && q.timeline == p.timeline
    ensures PriceSum(WithNewDeliverable(p).deliverables) == PriceSum(p.deliverables)
    ensures Balanced(p) ==> Balanced(WithNewDeliverable(p))
  {
    var q := WithNewDeliverable(p);
    assert q.deliverables[..|p.deliverables|] == p.deliverables;
    PriceSumAppend(p.deliverables, [NewItem]);
    assert [NewItem][1..] == [];
  }

  /** A timeline edit replaces one field of one entry; every other entry,
      the other fields of that entry and the rest of the draft stay, so
      balance is preserved. */
  lemma TimelineEditSpec(p: GeneratedProposal, i: nat, text: string)
    requires i < |p.timeline|
    ensures var q := WithMilestoneName(p, i, text);
      |q.timeline| == |p.timeline| &&
      q.timeline[i].milestone == text &&
      q.timeline[i].duration == p.timeline[i].duration &&
      q.timeline[i].description == p.timeline[i].description &&
      (forall k :: 0 <= k < |p.timeline| && k != i ==> q.timeline[k] == p.timeline[k]) &&
      q.deliverables == p.deliverables && q.pricing == p.pricing &&
      (Balanced(p) ==> Balanced(q))
    ensures var q := WithDuration(p, i, text);
      |q.timeline| == |p.timeline| &&
      q.timeline[i].duration == text &&
      q.timeline[i].milestone == p.timeline[i].milestone &&
      q.timeline[i].description == p.timeline[i].description &&
      (forall k :: 0 <= k < |p.timeline| && k != i ==> q.timeline[k] == p.timeline[k]) &&
      q.deliverables == p.deliverables && q.pricing == p.pricing &&
      (Balanced(p) ==> Balanced(q))
  {
  }

  /** The edit-recompute scenario: prices 100 and 250 with tax 10 give
      subtotal 350 and total 360; adding a deliverable and pricing it at 50
      gives 400 and 410. */
  lemma EditScenario(p: GeneratedProposal)
    requires |p.deliverables| == 2 && p.pricing.tax == Num(10)
    requires p.deliverables[0].price == Num(100) && p.deliverables[1].price == Num(250)
    ensures var q := WithDeliverableEdit(p, 0, SetPrice(100));
      q.pricing.subtotal == 350 && q.pricing.total == 360 &&
      var r := WithDeliverableEdit(WithNewDeliverable(q), 2, SetPrice(50));
      r.pricing.subtotal == 400 && r.pricing.total == 410
  {
    var q := WithDeliverableEdit(p, 0, SetPrice(100));
    DeliverableEditSpec(p, 0, SetPrice(100));
    var ds := q.deliverables;
    assert ds[0].price == Num(100) && ds[1].price == Num(250);
    assert ds[1..][1..] == [];
    assert PriceSum(ds[1..]) == 250;
    assert PriceSum(ds) == 350;
    NewDeliverableSpec(q);
    DeliverableEditSpec(WithNewDeliverable(q), 2, SetPrice(50));
  }

  // ---------------------------------------------------------------------
  // Saving

  /** The save request body: the draft's fields, the client form, the
      pricing figures copied out of `pricing`, and the chosen status. */
  function SavePayload(form: ClientForm, p: GeneratedProposal, status: string): CreateBody {
    CreateBody(
      ProposalContent(
        Some(p.title), Some(form.clientName), Some(form.clientEmail), Some(form.clientCompany),
        Some(form.clientPhone), Some(form.industry), Some(form.jobDescription), Some(p.scope),
        Some(p.deliverables), Some(p.timeline), Some(p.pricing), Some(p.terms), None,
        Num(p.pricing.subtotal), p.pricing.tax, Num(p.pricing.total)),
      None, Some(status), None, None)
  }

  /** A saved draft is stored with the status of the button pressed and
      with the page's figures: when the draft was balanced, the stored
      subtotal is the sum of the stored deliverables' prices and the stored
      total is that subtotal plus the tax. It has no expiry. */
  lemma SavedRecordSpec(form: ClientForm, p: GeneratedProposal, status: string,
                        owner: UserId, id: string, token: string, now: int)
    requires status == "DRAFT" || status == "SENT"
    requires Balanced(p)
    ensures var rec := NewRecord(owner, SavePayload(form, p, status), id, token, now);
      rec.status == status && rec.validUntil.None? && rec.userId == owner &&
      rec.content.deliverables == Some(p.deliverables) &&
      rec.content.subtotal == Num(PriceSum(p.deliverables)) &&
      rec.content.total == Num(PriceSum(p.deliverables) + NumberOrZero(rec.content.tax))
  {
  }

  // ---------------------------------------------------------------------
  // The page

  class NewProposalPage {
    var step: int
    var form: ClientForm
    var proposal: Option<GeneratedProposal>
    /** A generate request is in flight; the Generate button is disabled. */
    var generating: bool

    /** Step 3 always shows a draft. Once the wizard has left step 1, has a
        request in flight or holds a draft, an industry has been chosen:
        nothing clears it. The client name and the job description, by
        contrast, stay editable while a request is in flight, so the page
        keeps no invariant about them. */
    ghost predicate Valid()
      reads this
    {
      1 <= step <= 3 &&
      (step == 3 ==> proposal.Some?) &&
      (step >= 2 || generating || proposal.Some? ==> form.industry != "")
    }

    constructor()
      ensures Valid() && step == 1 && form == EmptyForm && proposal == None && !generating
    {
      step := 1;
      form := EmptyForm;
      proposal := None;
      generating := false;
    }

    /** Typing into one of the four client inputs of step 1. */
    method SetClientField(f: ClientField, value: string)
      requires Valid() && step == 1
      modifies this
      ensures Valid()
      ensures form == WithField(old(form), f, value)
      ensures step == old(step) && proposal == old(proposal) && generating == old(generating)
    {
      form := WithField(form, f, value);
    }

    /** Clicking one of the registry's industry buttons in step 1. */
    method SelectIndustry(t: IndustryTemplate)
      requires Valid() && step == 1 && t in IndustryTemplates
      modifies this
      ensures Valid()
      ensures form == old(form).(industry := t.id) && form.industry != ""
      ensures step == old(step) && proposal == old(proposal) && generating == old(generating)
    {
      form := form.(industry := t.id);
    }

    /** Typing the job description in step 2. */
    method SetJobDescription(text: string)
      requires Valid() && step == 2
      modifies this
      ensures Valid()
      ensures form == old(form).(jobDescription := text)
      ensures step == old(step) && proposal == old(proposal) && generating == old(generating)
    {
      form := form.(jobDescription := text);
    }

    /** "Continue": step 1 to 2, only with a client name and an industry. */
    method Continue() returns (advanced: bool)
      requires Valid() && step == 1
      modifies this
      ensures Valid()
      ensures advanced <==> form.clientName != "" && form.industry != ""
      ensures step == (if advanced then 2 else 1)
      ensures form == old(form) && proposal == old(proposal) && generating == old(generating)
    {
      if form.clientName == "" || form.industry == "" {
        return false;
      }
      step := 2;
      return true;
    }

    /** "Back" in step 2. */
    method BackToClientDetails()
      requires Valid() && step == 2
      modifies this
      ensures Valid()
      ensures step == 1 && form == old(form) && proposal == old(proposal) && generating == old(generating)
    {
      step := 1;
    }

    /** Clicking "Generate Proposal" in step 2. While a request is in
        flight the button is disabled and nothing happens; a blank job
        description only alerts. Otherwise the request built from the form
        as it is now is sent and the page waits for the reply. The route
        accepts that request exactly when the client name is non-empty:
        the industry is always set by then, but the client name may have
        been cleared in step 1 after an earlier reply arrived. */
    method SendGenerate(sessionName: Option<string>) returns (request: Option<GenerateBody>)
      requires Valid() && step == 2
      modifies this
      ensures Valid()
      ensures request.None? <==> old(generating) || Trim(form.jobDescription) == ""
      ensures request.Some? ==>
        request.value == GenerateRequest(form, sessionName) &&
        (RequiredFieldsPresent(request.value) <==> form.clientName != "")
      ensures generating == (old(generating) || request.Some?)
      ensures step == old(step) && form == old(form) && proposal == old(proposal)
    {
      if generating || Trim(form.jobDescription) == "" {
        return None;
      }
      assert form.jobDescription != "" by {
        assert Trim("") == "";
      }
      request := Some(GenerateRequest(form, sessionName));
      generating := true;
    }

    /** The in-flight request settles. `reply` is the parsed answer of a
        successful response, `None` when the response is not OK or the call
        fails (the page then only alerts). A reply becomes the draft and
        step 3 is shown, whatever step the user has moved to meanwhile and
        whatever the form now holds. */
    method ReceiveGenerated(reply: Option<GeneratedProposal>)
      requires Valid() && generating
      modifies this
      ensures Valid() && !generating
      ensures reply.Some? ==> step == 3 && proposal == reply
      ensures reply.None? ==> step == old(step) && proposal == old(proposal)
      ensures form == old(form)
    {
      if reply.Some? {
        proposal := reply;
        step := 3;
      }
      generating := false;
    }

    /** "Back" in step 3; the draft is kept. */
    method BackToJobDescription()
      requires Valid() && step == 3
      modifies this
      ensures Valid()
      ensures step == 2 && form == old(form) && proposal == old(proposal) && generating == old(generating)
    {
      step := 2;
    }

    /** Editing the title in step 3. */
    method EditTitle(text: string)
      requires Valid() && step == 3
      modifies this
      ensures Valid()
      ensures proposal == Some(old(proposal).value.(title := text))
      ensures step == old(step) && form == old(form) && generating == old(generating)
    {
      proposal := Some(proposal.value.(title := text));
    }

    /** Editing the scope in step 3. */
    method EditScope(text: string)
      requires Valid() && step == 3
      modifies this
      ensures Valid()
      ensures proposal == Some(old(proposal).value.(scope := text))
      ensures step == old(step) && form == old(form) && generating == old(generating)
    {
      proposal := Some(proposal.value.(scope := text));
    }

    /** Editing the terms in step 3. */
    method EditTerms(text: string)
      requires Valid() && step == 3
      modifies this
      ensures Valid()
      ensures proposal == Some(old(proposal).value.(terms := text))
      ensures step == old(step) && form == old(form) && generating == old(generating)
    {
      proposal := Some(proposal.value.(terms := text));
    }

    /** `updateDeliverable(i, field, value)` from the inputs of deliverable
        `i`. The draft is balanced afterwards. */
    method UpdateDeliverable(i: nat, e: DeliverableEdit)
      requires Valid() && step == 3 && i < |proposal.value.deliverables|
      modifies this
      ensures Valid()
      ensures proposal == Some(WithDeliverableEdit(old(proposal).value, i, e))
      ensures Balanced(proposal.value)
      ensures step == old(step) && form == old(form) && generating == old(generating)
    {
      var p := proposal.value;
      var updated := p.deliverables;
      updated := updated[i := ApplyEdit(updated[i], e)];
      var subtotal := PriceSum(updated);
      proposal := Some(p.(deliverables := updated,
        pricing := p.pricing.(subtotal := subtotal, total := subtotal + NumberOrZero(p.pricing.tax))));
      DeliverableEditSpec(p, i, e);
    }

    /** "+ Add Deliverable". */
    method AddDeliverable()
      requires Valid() && step == 3
      modifies this
      ensures Valid()
      ensures proposal == Some(WithNewDeliverable(old(proposal).value))
      ensures Balanced(old(proposal).value) ==> Balanced(proposal.value)
      ensures step == old(step) && form == old(form) && generating == old(generating)
    {
      NewDeliverableSpec(proposal.value);
      proposal := Some(WithNewDeliverable(proposal.value));
    }

    /** Editing the name of milestone `i`. */
    method EditMilestoneName(i: nat, text: string)
      requires Valid() && step == 3 && i < |proposal.value.timeline|
      modifies this
      ensures Valid()
      ensures proposal == Some(WithMilestoneName(old(proposal).value, i, text))
      ensures step == old(step) && form == old(form) && generating == old(generating)
    {
      proposal := Some(WithMilestoneName(proposal.value, i, text));
    }

    /** Editing the duration of milestone `i`. */
    method EditDuration(i: nat, text: string)
      requires Valid() && step == 3 && i < |proposal.value.timeline|
      modifies this
      ensures Valid()
      ensures proposal == Some(WithDuration(old(proposal).value, i, text))
      ensures step == old(step) && form == old(form) && generating == old(generating)
    {
      proposal := Some(WithDuration(proposal.value, i, text));
    }

    /** "Save Draft" (`status` "DRAFT") or "Save & Send" (`status` "SENT"):
        the request body sent to the create route. The page itself does not
        change. */
    method Save(status: string) returns (payload: CreateBody)
      requires Valid() && step == 3
      requires status == "DRAFT" || status == "SENT"
      ensures payload == SavePayload(form, proposal.value, status)
      ensures payload.status == Some(status) && payload.userId.None? && payload.shareToken.None?
      ensures payload.content.subtotal == Num(proposal.value.pricing.subtotal)
      ensures payload.content.tax == proposal.value.pricing.tax
      ensures payload.content.total == Num(proposal.value.pricing.total)
    {
      payload := SavePayload(form, proposal.value, status);
    }
  }
}

=== FILE: ProposalsRoute.dfy ===
/** `GET` and `POST /api/proposals` over an in-memory proposal store: the
    owner's proposals newest first, each with its latest view, and the
    creation of a proposal stamped with its owner, a server-side share token
    and default status. */
module ProposalsRoute {
  import opened Wrappers
  import opened JsText
  import opened Drafts

  /** The fields the create handler copies from the body unchanged. */
  datatype ProposalContent = ProposalContent(
    title: Option<string>,
    clientName: Option<string>,
    clientEmail: Option<string>,
    clientCompany: Option<string>,
    clientPhone: Option<string>,
    industry: Option<string>,
    description: Option<string>,
    scope: Option<string>,
    deliverables: Option<seq<Deliverable>>,
    timeline: Option<seq<Milestone>>,
    pricing: Option<Pricing>,
    terms: Option<string>,
    notes: Option<string>,
    subtotal: Amount,
    tax: Amount,
    total: Amount)

  /** The JSON body of a create request. A client may also send `userId` or
      `shareToken`; the handler never reads them. */
  datatype CreateBody = CreateBody(
    content: ProposalContent,
    validUntil: Option<string>,
    status: Option<string>,
    userId: Option<UserId>,
    shareToken: Option<string>)

  /** A stored proposal. `createdAt` is the store's creation timestamp. */
  datatype ProposalRecord = ProposalRecord(
    id: string,
    userId: UserId,
    shareToken: string,
    status: string,
    validUntil: Option<string>,
    createdAt: int,
    content: ProposalContent)

  /** A recorded view of a proposal's public page. */
  datatype ViewEvent = ViewEvent(proposalId: string, viewedAt: int, duration: Option<int>)

  /** One entry of the list answer: the proposal and at most one view. */
  datatype ListedProposal = ListedProposal(record: ProposalRecord, viewEvents: seq<ViewEvent>)

  const Unauthorized := "Unauthorized"
  const ListFailed := "Failed to get proposals"
  const CreateFailed := "Failed to create proposal"
  const DefaultStatus := "DRAFT"

  // ---------------------------------------------------------------------
  // GET: owner filter, newest first, latest view

  /** `where: { userId }`. */
  function OwnedBy(ps: seq<ProposalRecord>, owner: UserId): (r: seq<ProposalRecord>)
    ensures forall p :: p in r <==> p in ps && p.userId == owner
    ensures forall p: ProposalRecord :: p.userId == owner ==> multiset(r)[p] == multiset(ps)[p]
    ensures forall p: ProposalRecord :: p.userId != owner ==> multiset(r)[p] == 0
  {
    if ps == [] then []
    else
      assert ps == [ps[0]] + ps[1..];
      if ps[0].userId == owner then [ps[0]] + OwnedBy(ps[1..], owner) else OwnedBy(ps[1..], owner)
  }

  /** Ordered by `createdAt`, newest first. */
  predicate NewestFirst(ps: seq<ProposalRecord>) {
    forall i, j :: 0 <= i < j < |ps| ==> ps[i].createdAt >= ps[j].createdAt
  }

  /** Puts `p` in front of the first entry that is not newer than it. */
  function InsertNewest(p: ProposalRecord, ps: seq<ProposalRecord>): seq<ProposalRecord> {
    if ps == [] || ps[0].createdAt <= p.createdAt then [p] + ps
    else [ps[0]] + InsertNewest(p, ps[1..])
  }

  /** Insertion adds exactly `p`. */
  lemma {:induction false} InsertNewestPermutes(p: ProposalRecord, ps: seq<ProposalRecord>)
    ensures multiset(InsertNewest(p, ps)) == multiset(ps) + multiset{p}
  {
    if ps != [] && ps[0].createdAt > p.createdAt {
      InsertNewestPermutes(p, ps[1..]);
      assert ps == [ps[0]] + ps[1..];
    }
  }

  /** Insertion into an ordered list keeps it ordered, and its head is
      either `p` or the old head. */
  lemma {:induction false} InsertNewestOrdered(p: ProposalRecord, ps: seq<ProposalRecord>)
    requires NewestFirst(ps)
    ensures var r := InsertNewest(p, ps);
      NewestFirst(r) && |r| == |ps| + 1 && (r[0] == p || r[0] == ps[0])
  {
    if ps != [] && ps[0].createdAt > p.createdAt {
      var tail := ps[1..];
      assert NewestFirst(tail) by {
        forall i, j | 0 <= i < j < |tail| ensures tail[i].createdAt >= tail[j].createdAt {
          assert tail[i] == ps[i + 1] && tail[j] == ps[j + 1];
        }
      }
      InsertNewestOrdered(p, tail);
      var rest := InsertNewest(p, tail);
      var r := [ps[0]] + rest;
      assert rest[0].createdAt <= ps[0].createdAt;
      forall i, j | 0 <= i < j < |r| ensures r[i].createdAt >= r[j].createdAt {
        if i > 0 {
          assert r[i] == rest[i - 1] && r[j] == rest[j - 1];
        } else {
          assert r[j] == rest[j - 1];
          assert rest[0].createdAt >= rest[j - 1].createdAt;
        }
      }
    }
  }

  /** `orderBy: { createdAt: "desc" }`, as an insertion sort; the store's
      order among equal timestamps is not specified. */
  function SortNewestFirst(ps: seq<ProposalRecord>): seq<ProposalRecord> {
    if ps == [] then [] else InsertNewest(ps[0], SortNewestFirst(ps[1..]))
  }

  /** Sorting permutes its input into newest-first order. */
  lemma {:induction false} SortNewestFirstSpec(ps: seq<ProposalRecord>)
    ensures multiset(SortNewestFirst(ps)) == multiset(ps)
    ensures NewestFirst(SortNewestFirst(ps))
  {
    if ps != [] {
      SortNewestFirstSpec(ps[1..]);
      InsertNewestPermutes(ps[0], SortNewestFirst(ps[1..]));
      InsertNewestOrdered(ps[0], SortNewestFirst(ps[1..]));
      assert ps == [ps[0]] + ps[1..];
    }
  }

  /** The view of proposal `pid` with the largest `viewedAt`, if any. */
  function LatestView(events: seq<ViewEvent>, pid: string): (r: Option<ViewEvent>)
    ensures r.Some? ==> r.value in events && r.value.proposalId == pid
    ensures r.Some? ==> forall e :: e in events && e.proposalId == pid ==> e.viewedAt <= r.value.viewedAt
    ensures r.None? <==> forall e :: e in events ==> e.proposalId != pid
  {
    if events == [] then None
    else
      var rest := LatestView(events[1..], pid);
      assert forall e :: e in events ==> e == events[0] || e in events[1..];
      if events[0].proposalId != pid then rest
      else if rest.Some? && rest.value.viewedAt > events[0].viewedAt then rest
      else Some(events[0])
  }

  /** `include: { viewEvents: { orderBy: { viewedAt: "desc" }, take: 1 } }`. */
  function LatestViews(events: seq<ViewEvent>, pid: string): seq<ViewEvent> {
    match LatestView(events, pid)
    case None => []
    case Some(e) => [e]
  }

  /** The list answer for `owner`. */
  function Listing(ps: seq<ProposalRecord>, events: seq<ViewEvent>, owner: UserId): seq<ListedProposal> {
    var sorted := SortNewestFirst(OwnedBy(ps, owner));
    seq(|sorted|, i requires 0 <= i < |sorted| => ListedProposal(sorted[i], LatestViews(events, sorted[i].id)))
  }

  /** The records of a list answer. */
  function Records(ls: seq<ListedProposal>): (r: seq<ProposalRecord>)
    ensures |r| == |ls| && forall i :: 0 <= i < |ls| ==> r[i] == ls[i].record
  {
    seq(|ls|, i requires 0 <= i < |ls| => ls[i].record)
  }

  /** The `take: 1` list of a proposal's views holds at most one event:
      none when the proposal has no views, else one with the largest
      `viewedAt` among them. */
  lemma LatestViewsSpec(events: seq<ViewEvent>, pid: string)
    ensures var vs := LatestViews(events, pid);
      |vs| <= 1 &&
      (vs == [] <==> forall e :: e in events ==> e.proposalId != pid) &&
      (forall v, e :: v in vs && e in events && e.proposalId == pid ==>
         v in events && v.proposalId == pid && e.viewedAt <= v.viewedAt)
  {
  }

  /** The list answer holds exactly the owner's proposals, each once as
      often as stored, newest first, and each with its `take: 1` views. */
  lemma ListingSpec(ps: seq<ProposalRecord>, events: seq<ViewEvent>, owner: UserId)
    ensures var ls := Listing(ps, events, owner);
      multiset(Records(ls)) == multiset(OwnedBy(ps, owner)) &&
      (forall p :: p in Records(ls) <==> p in ps && p.userId == owner) &&
      NewestFirst(Records(ls))
    ensures var ls := Listing(ps, events, owner);
      forall i :: 0 <= i < |ls| ==> ls[i].viewEvents == LatestViews(events, ls[i].record.id)
  {
    var owned := OwnedBy(ps, owner);
    var sorted := SortNewestFirst(owned);
    SortNewestFirstSpec(owned);
    var ls := Listing(ps, events, owner);
    assert Records(ls) == sorted;
    forall p ensures p in Records(ls) <==> p in ps && p.userId == owner {
      assert p in sorted <==> p in multiset(sorted);
      assert p in owned <==> p in multiset(owned);
    }
  }

  // ---------------------------------------------------------------------
  // POST: record construction

  /** The record the create handler stores: the owner comes from the
      session and the share token from the server, never from the body; the
      status is the body's when truthy and "DRAFT" otherwise; `validUntil`
      is null unless the body's is truthy. */
  function NewRecord(owner: UserId, body: CreateBody, id: string, token: string, now: int): ProposalRecord {
    ProposalRecord(id, owner, token, OrElse(body.status, DefaultStatus),
      if Truthy(body.validUntil) then body.validUntil else None,
      now, body.content)
  }

  /** What the body decides of a new record: its content, its status and
      its expiry. Owner, id, token and timestamp come from elsewhere, and a
      `userId` or `shareToken` in the body changes nothing. */
  lemma NewRecordSources(owner: UserId, b: CreateBody, b': CreateBody, id: string, token: string, now: int)
    ensures var r := NewRecord(owner, b, id, token, now);
      r.userId == owner && r.shareToken == token && r.id == id && r.createdAt == now &&
      r.content == b.content
    ensures var r := NewRecord(owner, b, id, token, now);
      (Truthy(b.status) ==> r.status == b.status.value) &&
      (!Truthy(b.status) ==> r.status == DefaultStatus) &&
      r.status != ""
    ensures var r := NewRecord(owner, b, id, token, now);
      (r.validUntil.None? <==> !Truthy(b.validUntil)) &&
      (r.validUntil.Some? ==> r.validUntil == b.validUntil)
    ensures b'.content == b.content && b'.status == b.status && b'.validUntil == b.validUntil ==>
      NewRecord(owner, b', id, token, now) == NewRecord(owner, b, id, token, now)
  {
  }

  /** Some stored proposal already has this id. */
  predicate IdTaken(ps: seq<ProposalRecord>, id: string) {
    exists i :: 0 <= i < |ps| && ps[i].id == id
  }

  /** Some stored proposal already has this share token. */
  predicate TokenTaken(ps: seq<ProposalRecord>, token: string) {
    exists i :: 0 <= i < |ps| && ps[i].shareToken == token
  }

  /** Ids and share tokens are unique across the store. */
  predicate UniqueKeys(ps: seq<ProposalRecord>) {
    forall i, j :: 0 <= i < j < |ps| ==> ps[i].id != ps[j].id && ps[i].shareToken != ps[j].shareToken
  }

  /** Appending a record whose id and token are both unused keeps the keys
      unique; so does nothing else. */
  lemma {:induction false} AppendKeepsKeysUnique(ps: seq<ProposalRecord>, p: ProposalRecord)
    requires UniqueKeys(ps)
    ensures UniqueKeys(ps + [p]) <==> !IdTaken(ps, p.id) && !TokenTaken(ps, p.shareToken)
  {
    var qs := ps + [p];
    if !UniqueKeys(qs) {
      var i, j :| 0 <= i < j < |qs| && (qs[i].id == qs[j].id || qs[i].shareToken == qs[j].shareToken);
      assert j == |ps|;
      assert qs[i] == ps[i] && qs[j] == p;
    }
    if IdTaken(ps, p.id) {
      var i :| 0 <= i < |ps| && ps[i].id == p.id;
      assert qs[i].id == qs[|ps|].id;
    }
    if TokenTaken(ps, p.shareToken) {
      var i :| 0 <= i < |ps| && ps[i].shareToken == p.shareToken;
      assert qs[i].shareToken == qs[|ps|].shareToken;
    }
  }

  /** The proposal and view-event tables. */
  class ProposalStore {
    var proposals: seq<ProposalRecord>
    var viewEvents: seq<ViewEvent>

    ghost predicate Valid()
      reads this
    {
      UniqueKeys(proposals)
    }

    constructor()
      ensures Valid() && proposals == [] && viewEvents == []
    {
      proposals := [];
      viewEvents := [];
    }

    /** `GET`. `fault` stands for a failing store query, answered with 500. */
    function List(session: Option<UserId>, fault: bool): (r: Response<seq<ListedProposal>>)
      reads this
      ensures session.None? ==> r == Err(401, Unauthorized)
      ensures session.Some? && fault ==> r == Err(500, ListFailed)
      ensures session.Some? && !fault ==>
        (r.Ok? &&
         multiset(Records(r.body)) == multiset(OwnedBy(proposals, session.value)) &&
         NewestFirst(Records(r.body)) &&
         (forall i :: 0 <= i < |r.body| ==>
            r.body[i].viewEvents == LatestViews(viewEvents, r.body[i].record.id)))
      ensures session.Some? && !fault ==> r == Ok(Listing(proposals, viewEvents, session.value))
    {
      if session.None? then Err(401, Unauthorized)
      else if fault then Err(500, ListFailed)
      else
        ListingSpec(proposals, viewEvents, session.value);
        Ok(Listing(proposals, viewEvents, session.value))
    }

    /** `POST`. `body` is `None` when the request body is not JSON; `id`,
        `token` and `now` are the store's fresh id, the server's share token
        and the clock; `fault` stands for any other failure of the store
        (such as a missing required column). A clash of id or share token
        violates the store's unique constraints and fails like any other
        store error. Every failure is answered with 500 and stores nothing. */
    method Create(session: Option<UserId>, body: Option<CreateBody>, id: string, token: string, now: int, fault: bool)
      returns (r: Response<ProposalRecord>)
      requires Valid()
      modifies this
      ensures Valid()
      ensures viewEvents == old(viewEvents)
      ensures session.None? ==> r == Err(401, Unauthorized) && proposals == old(proposals)
      ensures session.Some? && (body.None? || fault || IdTaken(old(proposals), id) || TokenTaken(old(proposals), token)) ==>
        (r == Err(500, CreateFailed) && proposals == old(proposals))
      ensures session.Some? && body.Some? && !fault && !IdTaken(old(proposals), id) && !TokenTaken(old(proposals), token) ==>
        (r == Ok(NewRecord(session.value, body.value, id, token, now)) &&
         proposals == old(proposals) + [r.body])
    {
      if session.None? {
        return Err(401, Unauthorized);
      }
      if body.None? || fault || IdTaken(proposals, id) || TokenTaken(proposals, token) {
        return Err(500, CreateFailed);
      }
      var record := NewRecord(session.value, body.value, id, token, now);
      AppendKeepsKeysUnique(proposals, record);
      proposals := proposals + [record];
      r := Ok(record);
    }
  }

  /** A successful create is listed to its owner and to nobody else. */
  lemma CreatedIsListedToOwnerOnly(ps: seq<ProposalRecord>, events: seq<ViewEvent>, record: ProposalRecord, user: UserId)
    ensures record in Records(Listing(ps + [record], events, user)) <==> record.userId == user
  {
    ListingSpec(ps + [record], events, user);
  }
}

=== FILE: Templates.dfy ===
/** The industry template registry: a fixed, ordered list of six industries
    with the default contract terms, sample deliverables and prompt context
    each one contributes to a proposal. */
module Templates {
  import opened Wrappers

  datatype IndustryTemplate = IndustryTemplate(
    id: string,
    name: string,
    icon: string,
    description: string,
    defaultTerms: string,
    sampleDeliverables: seq<string>,
    promptContext: string)

  const GeneralContractor := IndustryTemplate(
    "general-contractor",
    "General Contractor",
    "\U{1F3D7}\U{FE0F}",
    "Construction, renovation, and building projects",
    "50% deposit required before work begins. Balance " +
      "due upon completion. All work warranted for 1 year. " +
      "Permits and inspections included unless otherwise " +
      "noted. Change orders must be approved in writing " +
      "and may affect timeline and cost.",
    ["Site preparation and cleanup",
     "Material procurement",
     "Labor and installation",
     "Final inspection and walkthrough"],
    "You are generating a proposal for a general contractor. " +
      "Include specific construction terminology, material " +
      "specifications where relevant, warranty information, " +
      "permit considerations, and realistic timelines for " +
      "construction work.")

  const Landscaping := IndustryTemplate(
    "landscaping",
    "Landscaping",
    "\U{1F33F}",
    "Lawn care, garden design, and outdoor projects",
    "50% deposit required to schedule work. Balance due " +
      "upon completion. Plant material warranted for 90 " +
      "days with proper care. Seasonal maintenance available " +
      "as add-on. Weather delays will be communicated promptly.",
    ["Design consultation",
     "Plant and material selection",
     "Installation and planting",
     "Initial maintenance setup"],
    "You are generating a proposal for a landscaping " +
      "company. Include plant species recommendations, " +
      "seasonal considerations, maintenance plans, and " +
      "outdoor design elements. Consider drainage, irrigation, " +
      "and soil conditions.")

  const Cleaning := IndustryTemplate(
    "cleaning",
    "Cleaning Services",
    "\U{2728}",
    "Residential and commercial cleaning",
    "Payment due upon completion of service. Recurring " +
      "services billed monthly. 24-hour cancellation notice " +
      "required. All cleaning supplies and equipment provided. " +
      "Satisfaction guaranteed or we will re-clean at no " +
      "charge.",
    ["Deep cleaning of all rooms",
     "Kitchen and bathroom sanitization",
     "Floor cleaning and polishing",
     "Window cleaning"],
    "You are generating a proposal for a cleaning service. " +
      "Include specific areas to be cleaned, frequency " +
      "of service, products used, and square footage considerations. " +
      "Address any special requirements like eco-friendly " +
      "products or allergy considerations.")

  const ItServices := IndustryTemplate(
    "it-services",
    "IT Services",
    "\U{1F4BB}",
    "Technology consulting, development, and support",
    "30% deposit to begin work. Milestone payments as " +
      "defined in timeline. Final payment upon delivery " +
      "and acceptance. Source code ownership transfers " +
      "upon full payment. 30-day bug fix warranty included. " +
      "Support available at hourly rate after warranty " +
      "period.",
    ["Requirements analysis and planning",
     "Development and implementation",
     "Testing and quality assurance",
     "Deployment and training",
     "Documentation"],
    "You are generating a proposal for an IT services " +
      "company. Include technical specifications, technology " +
      "stack recommendations, development methodology (agile/waterfall), " +
      "testing procedures, deployment strategy, and ongoing " +
      "support options.")

  const MarketingAgency := IndustryTemplate(
    "marketing-agency",
    "Marketing Agency",
    "\U{1F4C8}",
    "Digital marketing, branding, and advertising",
    "Monthly retainer billed at the beginning of each " +
      "month. Minimum 3-month commitment. Ad spend is billed " +
      "separately. All creative assets and copy are owned " +
      "by the client. Monthly performance reports included. " +
      "30-day notice required to cancel.",
    ["Strategy development",
     "Content creation",
     "Campaign setup and management",
     "Analytics and reporting",
     "Monthly optimization"],
    "You are generating a proposal for a marketing agency. " +
      "Include specific marketing channels (SEO, PPC, social " +
      "media, email), KPIs and metrics to track, content " +
      "deliverables, campaign strategies, and expected " +
      "ROI or growth targets.")

  const Consulting := IndustryTemplate(
    "consulting",
    "Consulting",
    "\U{1F4BC}",
    "Business strategy, management, and advisory",
    "Engagement fees billed monthly. Travel expenses " +
      "billed at cost. Confidentiality maintained per NDA. " +
      "Deliverables remain client property. 2-week notice " +
      "required for scope changes. Recommendations are " +
      "advisory; implementation is client's responsibility.",
    ["Initial assessment and discovery",
     "Research and analysis",
     "Strategy recommendations",
     "Implementation roadmap",
     "Follow-up review"],
    "You are generating a proposal for a consulting engagement. " +
      "Include assessment methodology, key stakeholder " +
      "interviews, analysis framework, deliverable documents " +
      "(reports, presentations), and measurable outcomes " +
      "or success criteria.")

  /** `industryTemplates`, in its declared order. */
  const IndustryTemplates: seq<IndustryTemplate> :=
    [GeneralContractor, Landscaping, Cleaning, ItServices, MarketingAgency, Consulting]

  /** `templates.find(t => t.id === id)`: the first entry with that id. */
  function FindTemplate(templates: seq<IndustryTemplate>, id: string): (r: Option<IndustryTemplate>)
    ensures r.Some? ==> r.value in templates && r.value.id == id
    ensures r.None? <==> forall k :: 0 <= k < |templates| ==> templates[k].id != id
  {
    if templates == [] then None
    else if templates[0].id == id then Some(templates[0])
    else FindTemplate(templates[1..], id)
  }

  /** Looks an industry up in the registry. */
  function Lookup(id: string): Option<IndustryTemplate> {
    FindTemplate(IndustryTemplates, id)
  }

  /** The ids in registry order. */
  function Ids(templates: seq<IndustryTemplate>): (r: seq<string>)
    ensures |r| == |templates|
    ensures forall k :: 0 <= k < |templates| ==> r[k] == templates[k].id
  {
    seq(|templates|, k requires 0 <= k < |templates| => templates[k].id)
  }

  predicate IdsDistinct(templates: seq<IndustryTemplate>) {
    forall i, j :: 0 <= i < j < |templates| ==> templates[i].id != templates[j].id
  }

  /** The registry holds exactly six entries, in this order. */
  lemma RegistryOrder()
    ensures Ids(IndustryTemplates) ==
      ["general-contractor", "landscaping", "cleaning", "it-services", "marketing-agency", "consulting"]
  {
  }

  /** No two registry entries share an id. */
  lemma RegistryIdsDistinct()
    ensures IdsDistinct(IndustryTemplates)
  {
    var ts := IndustryTemplates;
    assert ts[1].id[0] != ts[3].id[0];
  }

  /** With distinct ids, a first-match search finds an entry exactly when
      the entry is in the list with that id. */
  lemma {:induction false} FindTemplateUnique(templates: seq<IndustryTemplate>, id: string, t: IndustryTemplate)
    requires IdsDistinct(templates)
    ensures FindTemplate(templates, id) == Some(t) <==> t in templates && t.id == id
  {
    if templates != [] && templates[0].id != id {
      var rest := templates[1..];
      assert IdsDistinct(rest) by {
        forall i, j | 0 <= i < j < |rest| ensures rest[i].id != rest[j].id {
          assert rest[i] == templates[i + 1] && rest[j] == templates[j + 1];
        }
      }
      FindTemplateUnique(rest, id, t);
      assert t in templates && t.id == id ==> t in rest by {
        if t in templates && t.id == id {
          assert t != templates[0];
        }
      }
    } else if templates != [] {
      if t in templates && t.id == id {
        var k :| 0 <= k < |templates| && templates[k] == t;
        assert k == 0 || templates[0].id != templates[k].id;
      }
    }
  }

  /** Registry lookup returns the unique entry with the id, or nothing. */
  lemma LookupUnique(id: string, t: IndustryTemplate)
    ensures Lookup(id) == Some(t) <==> t in IndustryTemplates && t.id == id
  {
    RegistryIdsDistinct();
    FindTemplateUnique(IndustryTemplates, id, t);
  }

  /** The general-contractor entry is found by its id. */
  lemma LookupGeneralContractor()
    ensures Lookup("general-contractor") == Some(GeneralContractor)
  {
  }

  /** Every entry has non-empty default terms and prompt context, and four
      or five sample deliverables. */
  lemma RegistryEntriesComplete()
    ensures forall t :: t in IndustryTemplates ==>
      t.defaultTerms != "" && t.promptContext != "" &&
      4 <= |t.sampleDeliverables| <= 5
  {
  }

  /** An id outside the six, such as "other" (which the settings form
      offers as a business type), has no template. */
  lemma LookupOther()
    ensures Lookup("other") == None
  {
  }
}

=== FILE: Wrappers.dfy ===
/** Small value wrappers shared by every module: an optional value and the
    outcome of an HTTP route handler. */
module Wrappers {

  /** A value that may be missing (`undefined`/`null` in the application). */
  datatype Option<+T> = None | Some(value: T)

  /** What a route handler answers.
      - `Ok(body)`: status 200 with `body` as JSON;
      - `Err(status, error)`: a JSON `{ error }` object with that status;
      - `Unhandled`: an exception escaped the handler (no try/catch around
        it), so the framework itself answers with a server error. */
  datatype Response<+T> = Ok(body: T) | Err(status: int, error: string) | Unhandled

  /** The authenticated user id of the current request, if any
      (`session?.user` and `session.user.id`). */
  type UserId = string
}
